=== FILE: README.md ===
# gowsdl core, modelled in Dafny

gowsdl turns a WSDL document into Go source for a SOAP client. This project
models the three pieces of it that hold real logic once input and output are
set aside. It proves what each one promises.

- **Template helpers** (`TmplFuncs`, from `tmpl_funcs.go`). The functions the
  code templates call:
  - identifier sanitising (`normalize`) and Go keyword escaping
    (`replaceReservedWords`);
  - namespace-prefix stripping (`stripns`, `removeNS`);
  - XSD-to-Go type mapping (`toGoTypeNs`, `toGoType`) and first-letter export
    (`makePublic`);
  - comment rendering, double-quote escaping (`goString`) and the `dict`
    argument packer;
  - the three lookups over the parsed WSDL: `findType`, `findSOAPAction` and
    `findServiceAddress`.
- **Type deduplication** (`Refinement`, from `wsdl_refinement.go`). A single
  pass keeps the first simple or complex type declared under each
  `namespace:name` key. One set of seen keys spans all schemas and both kinds
  of type.
- **Generator setup and external schema resolution** (`GoWsdl` and
  `ResolverProofs`, from `gowsdl.go`):
  - `NewGoWSDL` validates and defaults its arguments.
  - `unmarshal` runs the resolver on every inline schema of the document, but
    only the first one is expanded: the rest are resolved against the same,
    already visited, location.
  - `resolveXSDExternals` and `downloadSchemaIfRequired` follow `<xs:import>`
    and `<xs:include>` references depth first. They keep a set of visited
    locations, a shared `uint8` depth counter capped at 100, and an
    append-only schema list.

Supporting modules:

- `Wrappers`: `Option` and `Result`.
- `Seqs`: subsequences, distinctness, and `strings.Split` with its inverse
  join.
- `Text`: ASCII character classes, case mapping, and Go's white-space
  trimming.
- `Wsdl`: the parts of the WSDL and XML Schema document model that the core
  reads.

How the model treats the environment and a few edge cases:

- **Locations.** A schema location is modelled by its canonical key, the
  string `Location.String` yields.
- **Resolving and loading.** These are the two halves of an `Env`:
  - `parse(base, ref)` stands for `Location.Parse`;
  - `load` maps a key to the outcome of fetching and decoding the document
    there.

  A key missing from `load` cannot be fetched. Its error text
  (`FetchError`) is a placeholder, because the real message comes from the
  network layer.
- **The depth counter.** It is kept as the number of increments (`ticks`).
  Its `uint8` value is `ticks % 256`, so the wrap-around is modelled exactly:
  `CeilingIsNotSticky` shows a state past the ceiling expanding again after
  the wrap.
- **The fetch log.** The resolver state records the key each appended schema
  was fetched from (`fetched`). This lets "each location is fetched once" be
  stated; the Go code keeps no such list.
- **Reserved words.** `replaceReservedWords` tests for a keyword on the raw
  identifier, before normalisation, as the code does. So `ty-pe` becomes
  `type`, not `type_` (`KeywordTestPrecedesNormalize`).
- **Type names in `toGoTypeNs`.** Line 113 calls the package-level
  `makePublic`, so a named type is capitalised whatever `exportAllTypes`
  says. A capitalised name is never a keyword, so the escaping there reduces
  to normalising.

## Model

| member | source | states |
|---|---|---|
| TmplFuncs.KeywordsStartLower | tmpl_funcs.go:15-41 | Every entry of the 25-keyword reserved-word table starts with a lower-case letter. |
| TmplFuncs.Normalize | tmpl_funcs.go:69-77 | The result is a subsequence of the input, made only of letters, digits and `_`. |
| TmplFuncs.NormalizeCounts | tmpl_funcs.go:69-77 | Every letter, digit and `_` of the input survives as often as it occurs, so nothing it should keep is lost. |
| TmplFuncs.NormalizeKeepsIdentifiers | tmpl_funcs.go:69-77 | A string of identifier characters only is left unchanged. |
| TmplFuncs.NormalizeIdempotent | tmpl_funcs.go:69-77 | Normalising twice is the same as normalising once. |
| TmplFuncs.NormalizeFirst | tmpl_funcs.go:69-77 | An identifier character at the front stays at the front. |
| TmplFuncs.ReplaceReservedWords | tmpl_funcs.go:79-85 | A Go keyword gets a trailing `_`; any other input is normalised. |
| TmplFuncs.KeywordTestPrecedesNormalize | tmpl_funcs.go:79-85 | The keyword test looks at the raw input: `ty-pe` normalises to the keyword `type`, which is not suffixed. |
| TmplFuncs.NormalizeExample | tmpl_funcs.go:69-77 | `Order-#1` normalises to `Order1`. |
| TmplFuncs.ReservedWordExample | tmpl_funcs.go:15-41 | The keyword `type` becomes `type_`. |
| TmplFuncs.StripNs | tmpl_funcs.go:121-128 | The stripped name never contains a colon. |
| TmplFuncs.StripNsSpec | tmpl_funcs.go:121-128 | With exactly one colon the result is the text after it. With none, or several, it is the text before the first colon. |
| TmplFuncs.RemoveNs | tmpl_funcs.go:87-94 | `removeNS` agrees with `stripns` on every input. |
| TmplFuncs.StripNsPrefixed | tmpl_funcs.go:121-128 | `prefix:local` strips to `local`. |
| TmplFuncs.StripNsUnprefixed | tmpl_funcs.go:121-128 | A name without a colon strips to itself. |
| TmplFuncs.MakePublic | tmpl_funcs.go:274-281 | Length and every character after the first are kept; the first is upper-cased. A name not starting lower-case, and `""`, are returned unchanged. |
| TmplFuncs.MakePublicIdempotent | tmpl_funcs.go:274-281 | Capitalising twice is the same as capitalising once. |
| TmplFuncs.ExportIfEnabled | tmpl_funcs.go:130-135 | The template's `makePublic` keeps the length and every character after the first. The first is capitalised when all types are exported; otherwise the name is returned as it is. |
| TmplFuncs.ExportIfEnabledIdempotent | tmpl_funcs.go:130-135 | Applying the template's `makePublic` twice is the same as applying it once. |
| TmplFuncs.PrimitiveTargetsArePlain | tmpl_funcs.go:43-65 | No Go type in the primitive table is empty or a pointer. |
| TmplFuncs.PublicNameIsNoKeyword | tmpl_funcs.go:113 | A capitalised name is never a keyword, so escaping it only normalises it. |
| TmplFuncs.ToGoTypeNs | tmpl_funcs.go:96-114 | A primitive maps to its table entry, looked up by stripped, lower-cased local name. Any other name maps to `*` + the normalised, capitalised qualified name; the keyword escape never fires. |
| TmplFuncs.ToGoTypeNsTellsPrimitives | tmpl_funcs.go:96-114 | A result is a Go type of the primitive table exactly when the input names a primitive. |
| TmplFuncs.ToGoType | tmpl_funcs.go:116-118 | No option affects `toGoType`: a primitive maps to its table entry, any other name to `*` + the normalised, capitalised local name, with no namespace glued on. |
| TmplFuncs.ToGoTypeNsIgnoresExport | tmpl_funcs.go:110-113 | Flipping `exportAllTypes` never changes a mapped type. |
| TmplFuncs.ToGoTypeNsWithoutNamespace | tmpl_funcs.go:110-112 | With namespaces ignored, or none given, the namespace argument changes nothing. |
| TmplFuncs.ToGoTypeNsNamesAreIdentifiers | tmpl_funcs.go:110-113 | A named type starting with a letter or `_` maps to a pointer to a non-empty, non-keyword Go identifier whose first character is not a lower-case letter. |
| TmplFuncs.PrefixedPrimitive | tmpl_funcs.go:98-108 | A prefixed primitive maps to the entry of its lower-cased local name, for any namespace argument. |
| TmplFuncs.IntExample | tmpl_funcs.go:43-65 | `xsd:int` maps to `int32`. |
| TmplFuncs.UnsignedIntExample | tmpl_funcs.go:43-65 | `xs:unsignedInt` maps to `uint32`: case is ignored in the lookup. |
| TmplFuncs.Base64Example | tmpl_funcs.go:43-65 | `xsd:base64Binary` maps to `[]byte`. |
| TmplFuncs.AnyTypeExample | tmpl_funcs.go:43-65 | An unprefixed `anyType` maps to `interface{}`. |
| TmplFuncs.NamedMapping | tmpl_funcs.go:110-113 | A named type whose qualified name is already an identifier maps to `*` + that name capitalised. |
| TmplFuncs.NamespacedMapping | tmpl_funcs.go:96-113 | A named type whose namespace and local part are identifier characters maps to `*` + the capitalised namespace-plus-local name, or to `*` + the capitalised local name when namespaces are ignored. |
| TmplFuncs.QualifiedNameExample | tmpl_funcs.go:96-113 | `ns:Foo` in namespace `ns` maps to `*NsFoo`. |
| TmplFuncs.IgnoredNamespaceExample | tmpl_funcs.go:110-113 | With namespaces ignored, `ns:Foo` in namespace `ns` maps to `*Foo`. |
| TmplFuncs.CommentLineSingle | tmpl_funcs.go:150-154 | A rendered line of a single source line holds no newline. |
| TmplFuncs.CommentSplitsBack | tmpl_funcs.go:149-158 | The joined rendering splits back, on newlines, into an empty piece followed by the rendered lines. |
| TmplFuncs.CommentStep | tmpl_funcs.go:149-155 | Each loop step appends a newline, `// ` and the trimmed line to the rendering so far. |
| TmplFuncs.BlankStep | tmpl_funcs.go:149-153 | A prefix of lines stays all blank on one more line exactly when that line trims to empty. |
| TmplFuncs.Comment | tmpl_funcs.go:137-161 | The result is empty exactly when every line is blank after trimming leading white space. Otherwise it splits, on newlines, into `""` followed by one `// ` line per source line. |
| TmplFuncs.GoString | tmpl_funcs.go:254-256 | Escaping never shortens the string, and never starts it with a bare quote. |
| TmplFuncs.GoStringEscapesQuotes | tmpl_funcs.go:254-256 | Every double quote of the result is preceded by a backslash. |
| TmplFuncs.GoStringRoundTrip | tmpl_funcs.go:254-256 | Un-escaping the result gives back the input. |
| TmplFuncs.PairsMapKeys | tmpl_funcs.go:264-270 | The map built from the first pairs has exactly their keys. |
| TmplFuncs.PairsMapLast | tmpl_funcs.go:264-270 | Each key maps to the value of the last of those pairs that carries it. |
| TmplFuncs.PairsMapComplete | tmpl_funcs.go:264-271 | After all pairs, the map holds exactly the keys of all pairs, each with its last pair's value. |
| TmplFuncs.Dict | tmpl_funcs.go:258-272 | Succeeds exactly when the count is even and every key is a string; otherwise it fails with the odd-count or non-string-key message. On success the keys are exactly the string keys, each mapped to its last pair's value. |
| TmplFuncs.LookupElement | tmpl_funcs.go:192-201 | Nothing exactly when no element of any schema matches the reference up to case. Otherwise the first match in schema order, then element order. |
| TmplFuncs.FirstElementMatchTail | tmpl_funcs.go:192-201 | Skipping a schema with no match shifts every match, and the first match, down by one schema. |
| TmplFuncs.ElementTypeName | tmpl_funcs.go:195-198 | A typed element yields a name with no colon in it; an untyped one yields its own name. |
| TmplFuncs.MessageAnswer | tmpl_funcs.go:172-201 | A message settles the lookup exactly when its name matches, it has a part, and that part is typed or names a declared element. The answer is then the part's stripped type, or the type name of the first matching element. |
| TmplFuncs.FindTypeIn | tmpl_funcs.go:171-203 | `""` when no message settles the lookup; otherwise the first message that does decides the answer. |
| TmplFuncs.FirstAnswerTail | tmpl_funcs.go:171-203 | Skipping a message that does not settle the lookup leaves the answer to the remaining messages. |
| TmplFuncs.FindType | tmpl_funcs.go:168-204 | The message name is stripped first. The answer is `""` when no message settles the lookup. Otherwise the first settling message decides: its first part's stripped type, or, for an element reference, the type name of the first element matching it up to case. |
| TmplFuncs.FindSoapActionIn | tmpl_funcs.go:209-220 | The action of the first operation so named in a binding of the port type, or `""` if none. |
| TmplFuncs.ActionMatchTail | tmpl_funcs.go:209-219 | Skipping a binding with no match shifts the first match down by one binding. |
| TmplFuncs.FindSoapAction | tmpl_funcs.go:208-221 | A binding matches on its stripped type equal to the port type. The first matching operation in declaration order wins; `""` when none. |
| TmplFuncs.FindServiceAddressIn | tmpl_funcs.go:224-231 | The address of the first port so named, or `""` if none. |
| TmplFuncs.PortMatchTail | tmpl_funcs.go:224-230 | Skipping a service with no match shifts the first match down by one service. |
| TmplFuncs.FindServiceAddress | tmpl_funcs.go:223-232 | The SOAP address of the first port named `name` in service and port order, or `""` when there is none. |
| Refinement.FirstOccurrences | wsdl_refinement.go:12-18 | The kept types are a subsequence of the input, and the seen set grows by exactly the input's keys. |
| Refinement.FirstOccurrencesSpec | wsdl_refinement.go:12-18 | Kept keys are pairwise different and unseen before. Between them they cover every input key not seen before. |
| Refinement.FirstOccurrencesIdentity | wsdl_refinement.go:12-18 | Input with different, unseen keys passes through unchanged. |
| Refinement.FirstOccurrencesKeepsFirst | wsdl_refinement.go:12-18 | The filter keeps exactly the elements whose key is neither seen nor carried by an earlier element, in order: the first occurrence of each key wins. |
| Refinement.DedupSchema | wsdl_refinement.go:10-29 | Only the two type lists change, each to a subsequence of itself. Simple types are filtered before complex types against one seen set. |
| Refinement.DedupSchemaSpec | wsdl_refinement.go:10-29 | A schema's surviving keys are pairwise different, and are exactly its keys not seen before. |
| Refinement.DedupSchemaKeepsFirst | wsdl_refinement.go:10-29 | In one schema, a simple type survives when its key is neither seen nor carried by an earlier simple type; a complex type when, besides, no simple type of the schema carries it. |
| Refinement.Dedup | wsdl_refinement.go:8-30 | Schema count and order are kept. Each schema changes only in its type lists, each a subsequence. The seen set ends as every key of every schema. |
| Refinement.DedupDistinct | wsdl_refinement.go:7-31 | No two surviving types in any schema, of either kind, share a key, and none was seen before. |
| Refinement.DedupKeys | wsdl_refinement.go:7-31 | A key survives exactly when it was present and not seen before. |
| Refinement.DedupIdentity | wsdl_refinement.go:7-31 | Schemas with different, unseen keys come through unchanged. |
| Refinement.RemoveTypeDuplicates | wsdl_refinement.go:7-31 | Lengths and everything but the type lists are kept, and those become subsequences. Afterwards all keys are pairwise different and the key set is unchanged. A type survives exactly when its key occurs nowhere earlier in visiting order: not in an earlier schema, not earlier in its own list and, for a complex type, not among its schema's simple types. |
| Refinement.DedupKeepsFirst | wsdl_refinement.go:7-31 | The first-occurrence rule holds for every schema of the pass. |
| Refinement.RemoveTypeDuplicatesIdempotent | wsdl_refinement.go:7-31 | Running the pass twice is the same as running it once. |
| Refinement.Refine | wsdl_refinement.go:3-5 | Only the schema list changes; its keys end up unique, the same keys are present, and the type that survives under each key is its first occurrence. |
| Refinement.RefineIdentity | wsdl_refinement.go:3-5 | A document whose keys are already unique is returned as it was. |
| Refinement.AllKeysContains | wsdl_refinement.go:9 | Each schema's keys are among the keys of the whole list. |
| Refinement.DedupAt | wsdl_refinement.go:8-30 | Schema `i` is filtered against exactly the keys of the schemas before it. |
| Refinement.PrefixKeys | wsdl_refinement.go:9 | The keys of the first `i` schemas split into the first schema's and the rest's. |
| Refinement.SimpleShadowsComplex | wsdl_refinement.go:12-28 | A complex type whose key a simple type in the same or an earlier schema already carries never survives. |
| GoWsdl.Wrap8 | gowsdl.go:37 | The recursion counter is an unsigned byte: it equals the number of increments below 256 and then wraps, repeating every 256 increments. |
| GoWsdl.NewGoWsdl | gowsdl.go:89-111 | Fails on a blank file argument with the fixed message, and passes on a location parse failure. Succeeds exactly otherwise. On success the package name is the trimmed argument, or `myservice` when that is blank. The flags are copied and the rest starts empty with level 0. |
| GoWsdl.SetIgnoreTypeNamespaces | gowsdl.go:117-119 | Sets the flag and leaves every other field as it was. |
| GoWsdl.GrowsTransitive | gowsdl.go:216-236 | Growth of the resolver state composes. |
| GoWsdl.NonEmpty | gowsdl.go:243-260 | The import and include loops visit exactly the non-empty locations, in their original order; an empty location is skipped. |
| GoWsdl.RefsOf | gowsdl.go:242-262 | Import locations come first and include locations after, and none is empty. |
| GoWsdl.Resolve | gowsdl.go:216-262 | The counter always moves up. Visited set, schema list and fetch log only grow. |
| GoWsdl.ResolveRefs | gowsdl.go:242-262 | The state only grows. |
| GoWsdl.HandleExternal | gowsdl.go:229-240 | The state only grows. |
| GoWsdl.ResolveExternals | gowsdl.go:211-214 | A missing schema or location leaves the state, counter included, untouched. Otherwise the counter moves up. |
| GoWsdl.ResolveAll | gowsdl.go:202-206 | The state only grows. The counter moves up at least once per schema, since nested calls count too, or at least once when an error stops the loop. |
| GoWsdl.Unmarshal | gowsdl.go:190-209 | A root fetch or decode failure is returned with the generator unchanged. Once the root has decoded, the generator keeps the document, visited set and counter of the run whether or not a resolver error is returned, so a later run continues from the raised counter. Only those three fields change. The counter rises by at least the number of inline schemas on success and by at least one on an error. The document's own schemas stay first and nothing else in it changes. |
| ResolverProofs.ResolveOverCeiling | gowsdl.go:216-219 | Once the counter passes 100, a call only bumps it: nothing is marked, fetched or appended. |
| ResolverProofs.ResolveVisited | gowsdl.go:221-224 | A visited location only bumps the counter. |
| ResolverProofs.ResolveMarks | gowsdl.go:221-225 | Under the ceiling the location ends up visited. |
| ResolverProofs.ResolveExpands | gowsdl.go:221-262 | Under the ceiling an unvisited location is marked first, and then its references are handled. |
| ResolverProofs.HandleExternalFetches | gowsdl.go:229-238 | A reference to an unvisited location that loads appends that schema, then resolves it. The set of unvisited loadable keys shrinks. |
| ResolverProofs.CeilingIsNotSticky | gowsdl.go:216-219 | The `uint8` counter wraps: at 255 the next call expands again. At 100 the next call is turned away, while at 99 it still marks. |
| ResolverProofs.ResolveLoaded | gowsdl.go:235-237 | Every appended schema is the decoded document at the key logged beside it. |
| ResolverProofs.ResolveRefsLoaded | gowsdl.go:242-262 | The reference loops keep that invariant. |
| ResolverProofs.HandleExternalLoaded | gowsdl.go:269-289 | Fetching one reference keeps that invariant. |
| ResolverProofs.ResolveFetchesOnce | gowsdl.go:221-225 | While the counter stays under the ceiling, no location is fetched twice and every fetched one is visited, so no location contributes two appended schemas. |
| ResolverProofs.ResolveRefsFetchesOnce | gowsdl.go:242-262 | The reference loops keep the fetch-once invariant under the ceiling. |
| ResolverProofs.HandleExternalFetchesOnce | gowsdl.go:272-275 | A visited key is never fetched again. |
| ResolverProofs.ResolveCovers | gowsdl.go:216-262 | Under the ceiling and with no error, the location ends up visited. When it was new, every reference of its schema resolves to a visited location, and so do the references of every schema appended on the way. Any other location marked was fetched during the call. |
| ResolverProofs.ResolveRefsCovers | gowsdl.go:242-262 | Under the ceiling and with no error, every reference in the loops resolves to a visited location, and every appended schema has its references resolved. |
| ResolverProofs.HandleExternalCovers | gowsdl.go:229-240 | Under the ceiling and with no error, the reference parses to a visited location, and every schema appended for it has its references resolved. |
| ResolverProofs.ResolveAllCovers | gowsdl.go:201-206 | The top-level loop, under the ceiling and with no error, marks the root and resolves the references of the first inline schema and of every appended schema. |
| ResolverProofs.UnmarshalResolvesReferences | gowsdl.go:190-209 | A successful `unmarshal` under the ceiling resolved every reference of the first inline schema and of every appended schema. Each one parses and names either the root or a location the run fetched, whose decoded schema sits among the appended ones. So each reference names a location that loads. |
| ResolverProofs.UnmarshalReachesChain | gowsdl.go:190-262 | After a successful `unmarshal` under the ceiling, every location at the end of a chain of references from the first inline schema, at any depth, is the root or was fetched by the run. No location is fetched twice, and each fetched schema is appended once after the document's own. |
| ResolverProofs.SchemaAtResolved | gowsdl.go:229-262 | Every reference of the schema at the root, or at any location the run fetched, names the root or a fetched location. |
| ResolverProofs.ChainEndResolved | gowsdl.go:229-240 | Every reference of the schema at the end of such a chain names the root or a fetched location, and so one that loads. |
| ResolverProofs.UnmarshalPropagatesFailure | gowsdl.go:190-209 | A reference that fails to parse, fetch or decode makes `unmarshal` fail, unless the counter has passed the ceiling. This holds whether the reference sits in the first inline schema or in a schema at the end of a chain of imports and includes from it, at any depth. |
| ResolverProofs.ResolveAllFetchesOnce | gowsdl.go:202-206 | The top-level loop keeps the fetch-once invariant under the ceiling. |
| ResolverProofs.UnmarshalFetchesOnce | gowsdl.go:190-209 | Behind a successful `unmarshal` under the ceiling lies a run whose appended schemas follow the document's own, each decoded from the location logged beside it, with no location fetched twice. |
| ResolverProofs.ResolveRefsAppend | gowsdl.go:243-246 | References run in order: after an error none that follows is looked at, otherwise the rest carry on from the state left behind. |
| ResolverProofs.ImportsBeforeIncludes | gowsdl.go:242-262 | All imports are handled before any include, and an import error skips the includes. |
| ResolverProofs.ResolveAllAfterRoot | gowsdl.go:202-203 | Once the root location is visited, every further top-level schema only bumps the counter. |
| ResolverProofs.OnlyFirstTopLevelSchemaExpands | gowsdl.go:201-206 | Only the first inline schema expands references; the others hit the visited check. |
| ResolverProofs.UnmarshalAppendsLoaded | gowsdl.go:196-206 | Every schema after the document's own is the decoded document at some location. |
| ResolverProofs.ResolveAllLoaded | gowsdl.go:202-206 | The top-level loop keeps the appended-is-loaded invariant. |
| ResolverProofs.ResolveErrors | gowsdl.go:211-263 | Any error a resolution returns was produced by a resolve, fetch or decode step. |
| ResolverProofs.ResolveRefsErrors | gowsdl.go:242-262 | The same for the reference loops. |
| ResolverProofs.HandleExternalErrors | gowsdl.go:265-290 | The same for one reference. |
| ResolverProofs.ResolveAllErrors | gowsdl.go:202-206 | The same for the top-level loop. |
| ResolverProofs.UnmarshalErrors | gowsdl.go:190-209 | `unmarshal` fails only with the root's own error, or with an error from a resolve, fetch or decode step anywhere in the recursion. |
| Seqs.SplitJoin | tmpl_funcs.go:138 | Splitting the join of newline-free pieces gives the pieces back. |
| Seqs.JoinSplit | tmpl_funcs.go:138 | Joining the pieces of a split gives the string back. |
| Text.TrimSpaceSpec | gowsdl.go:90-95 | `strings.TrimSpace` removes exactly the leading and trailing white space. |
| Text.TrimLeftSpaceSpec | tmpl_funcs.go:150 | `TrimLeftFunc(unicode.IsSpace)` removes exactly the leading white space. |

## Left out

- **HTTP and file input.** `downloadFile`, `fetchFile`, `dialTimeout`, TLS and basic authentication, and the cache directory set up at start-up are left out. Fetching plus decoding is the `load` map of an `Env`.
- **XML decoding.** `xml.Unmarshal` is not modelled; the `Definitions` and `Schema` values stand for its output.
- **Location parsing.** `ParseLocation` and `Location.Parse` are not modelled. They become the `parseLocation` argument of `GoWsdl.NewGoWsdl` and the `parse` field of an `Env`.
- **Code generation.** `Start`, `genTypes`, `genOperations`, `genHeader` and `genSOAPClient` are left out. They run templates concurrently, and none of their logic lies in this core.
- **`generator.go`.** It creates files and formats the output.
- **`SetBasicAuth`.** It only stores the credentials used by the download left out above.
- **`newTraverser`.** It is not part of this model.
- **Logging.** The `log.Printf` calls are left out.
- **The `refine` call site.** `refineRawWsdlData` (gowsdl.go:293) passes `ignoreTypeNs` to `refine`, but the `refine` in wsdl_refinement.go:3 takes no argument. The model follows wsdl_refinement.go, whose key always includes the namespace.
- **The template function table.** `createTmplFunctions` only registers the closures under their template names; each closure is modelled on its own.
- **Non-ASCII letters.** `unicode.IsLetter`, `unicode.IsDigit`, `unicode.ToUpper`, `strings.ToLower` and `strings.EqualFold` are restricted to ASCII. `unicode.IsSpace` is modelled for every code point it accepts. Dafny characters stand for runes.
- TmplFuncs.Normalize: does not keep non-ASCII letters and digits, which Go's `unicode.IsLetter` and `unicode.IsDigit` accept.
- TmplFuncs.MakePublic: upper-cases only ASCII letters.
- TmplFuncs.LookupElement: compares names by ASCII case folding, not Unicode simple folding.
- Text.Lower: lowers only ASCII letters. Go's `strings.ToLower` also lowers others, for example `İ` (U+0130) to `i`, so Go maps `xsd:İnt` to `int32` where the model maps it to a named type.
- ResolverProofs.ResolveFetchesOnce: holds only while the counter stays at or below 100. Past the ceiling, a freshly fetched schema is appended without being marked visited, and can be fetched again.
- ResolverProofs.ResolveRefsFetchesOnce: holds only under the same ceiling condition.
- ResolverProofs.HandleExternalFetchesOnce: holds only under the same ceiling condition.
- ResolverProofs.ResolveCovers: holds only while the counter stays at or below 100. Past the ceiling a call returns without an error and without looking at the references, so a reference can stay unresolved.
- ResolverProofs.ResolveRefsCovers: holds only under the same ceiling condition.
- ResolverProofs.HandleExternalCovers: holds only under the same ceiling condition.
- ResolverProofs.ResolveAllCovers: covers the first inline schema only. The later ones are resolved against the same root location, which is already visited, so their references are never looked at (`OnlyFirstTopLevelSchemaExpands`).
- ResolverProofs.UnmarshalResolvesReferences: holds only under the ceiling, and for the first inline schema and the appended ones, for the reasons above.
- ResolverProofs.UnmarshalPropagatesFailure: a failure is propagated only while the counter stays under the ceiling, and only along chains that start at the first inline schema.
- ResolverProofs.UnmarshalReachesChain: holds only under the ceiling, and for chains that start at the first inline schema, since the later inline schemas are never expanded.
- ResolverProofs.SchemaAtResolved: holds only under the same ceiling condition.
- ResolverProofs.ChainEndResolved: holds only under the same ceiling condition.
- **Termination of the resolver.** The model terminates because its termination measure counts the fetched location as visited on each descent, so nesting is bounded by the number of loadable locations, which form a finite map. The Go code has no such bound. Its `uint8` counter wraps (`CeilingIsNotSticky`), and past the ceiling a fetched schema is not marked. Of every 256 consecutive calls at most 101 find the counter at or below 100 and expand their schema; the rest only bump the counter. With unboundedly many fetchable locations and each schema importing at least three fresh URLs, the 101 expanding calls of a counter cycle start at least 303 new calls, more than the 256 the cycle uses up, so the Go recursion need not end. With two fresh URLs each it still ends, before the counter first wraps.
- GoWsdl.Unmarshal: states that the counter rises by at least one per inline schema, not its exact final value. A root document that fetches but fails to decode is modelled like a fetch failure and leaves the generator unchanged, whereas Go has already replaced `g.wsdl` with the partly decoded document, because XML decoding is not modelled.
- GoWsdl.FetchError: the message for an unfetchable location is a placeholder; the real one comes from the network or file layer.

=== FILE: gowsdl.dfy ===
/**
 The generator's constructor and the resolver for external XML Schema
 documents. A schema location is modelled by its canonical string (what
 `Location.String` yields); resolving a reference against a base location,
 and fetching plus decoding the document found at a location, are the
 parameters of an `Env`.
 */
module GoWsdl {

  import opened Wrappers
  import opened Seqs
  import opened Text
  import opened Wsdl

  /** The resolver's depth ceiling. */
  const MaxRecursion: nat := 100

  const FileRequiredError: string := "WSDL file is required to generate Go proxy"

  const DefaultPackage: string := "myservice"

  /**
   A `uint8` incremented `n` times from zero: `n` wrapped at 256. Small
   counts are kept as they are; counts of 256 and more start over.
   */
  function Wrap8(n: nat): (v: nat)
    ensures v < 256
    ensures n < 256 ==> v == n
    ensures n >= 256 ==> v == Wrap8(n - 256)
  {
    n % 256
  }

  /** The fields of the generator the core reads or writes. */
  datatype Generator = Generator(
    loc: string,
    pkg: string,
    ignoreTls: bool,
    ignoreTypeNs: bool,
    exportAllTypes: bool,
    wsdl: Option<Definitions>,
    resolved: set<string>,
    ticks: nat)
  {
    /** The `uint8` recursion counter: the number of increments so far, wrapped at 256. */
    function RecursionLevel(): nat {
      Wrap8(ticks)
    }
  }

  /**
   `NewGoWSDL`: the file argument is trimmed and must not be blank; the package
   name is trimmed and defaults to `myservice`; the location comes from
   `parseLocation`, whose failure is passed on. Everything else starts empty.
   */
  function NewGoWsdl(file: string, pkg: string, ignoreTls: bool, exportAllTypes: bool,
                     parseLocation: string -> Result<string>): (r: Result<Generator>)
    ensures TrimSpace(file) == "" ==> r == Failure(FileRequiredError)
    ensures TrimSpace(file) != "" && parseLocation(TrimSpace(file)).Failure? ==>
      r == Failure(parseLocation(TrimSpace(file)).error)
    ensures r.Success? <==> TrimSpace(file) != "" && parseLocation(TrimSpace(file)).Success?
    ensures r.Success? ==> r.value.loc == parseLocation(TrimSpace(file)).value
    ensures r.Success? ==> r.value.pkg != "" && !IsSpace(r.value.pkg[0]) && !IsSpace(r.value.pkg[|r.value.pkg| - 1])
    ensures r.Success? ==> (r.value.pkg == DefaultPackage <==> TrimSpace(pkg) == "" || TrimSpace(pkg) == DefaultPackage)
    ensures r.Success? ==> r.value.pkg == DefaultPackage || IsTrimmingOf(r.value.pkg, pkg)
    ensures r.Success? ==> r.value.ignoreTls == ignoreTls && r.value.exportAllTypes == exportAllTypes
    ensures r.Success? ==> !r.value.ignoreTypeNs && r.value.wsdl.None? && r.value.resolved == {} && r.value.RecursionLevel() == 0
  {
    var file := TrimSpace(file);
    if file == "" then Failure(FileRequiredError)
    else
      var trimmed := TrimSpace(pkg);
      TrimSpaceSpec(pkg);
      var pkg := if trimmed == "" then DefaultPackage else trimmed;
      match parseLocation(file)
      case Failure(e) => Failure(e)
      case Success(loc) => Success(Generator(loc, pkg, ignoreTls, false, exportAllTypes, None, {}, 0))
  }

  /** `SetIgnoreTypeNamespaces`: sets the flag and leaves every other field alone. */
  function SetIgnoreTypeNamespaces(g: Generator, ignore: bool): (r: Generator)
    ensures r.ignoreTypeNs == ignore
    ensures r.(ignoreTypeNs := g.ignoreTypeNs) == g
  {
    g.(ignoreTypeNs := ignore)
  }

  // ---------------------------------------------------------------------------
  // The resolver

  /**
   What the resolver asks of the outside world. `parse(base, ref)` resolves a
   schema reference against the location of the referring schema.
   `load[key]` is the outcome of fetching and decoding the document at `key`;
   a key outside the map cannot be fetched at all.
   */
  datatype Env = Env(parse: (string, string) -> Result<string>, load: map<string, Result<Schema>>)

  /** The error for a location that cannot be fetched. */
  function FetchError(key: string): string {
    "cannot fetch " + key
  }

  /**
   The resolver's state. `visited` is the set of resolved location keys;
   `ticks` counts increments of the recursion counter; `schemas` holds the
   schemas appended to the document, and `fetched` the key each came from.
   */
  datatype State = State(visited: set<string>, ticks: nat, schemas: seq<Schema>, fetched: seq<string>)
  {
    /** The value of the `uint8` counter. */
    function Level(): nat {
      Wrap8(ticks)
    }
  }

  /** The outcome of a resolver call: the new state and the first error, if any. */
  datatype Step = Step(st: State, err: Option<string>)

  /** `t` extends `s`: nothing is ever unmarked, uncounted or removed. */
  ghost predicate Grows(s: State, t: State) {
    && s.visited <= t.visited
    && s.ticks <= t.ticks
    && |s.schemas| <= |t.schemas| && t.schemas[..|s.schemas|] == s.schemas
    && |s.fetched| <= |t.fetched| && t.fetched[..|s.fetched|] == s.fetched
    && |t.schemas| - |s.schemas| == |t.fetched| - |s.fetched|
  }

  lemma GrowsTransitive(a: State, b: State, c: State)
    requires Grows(a, b) && Grows(b, c)
    ensures Grows(a, c)
  {
    assert c.schemas[..|a.schemas|] == c.schemas[..|b.schemas|][..|a.schemas|];
    assert c.fetched[..|a.fetched|] == c.fetched[..|b.fetched|][..|a.fetched|];
  }

  /**
   The locations a reference loop visits: the non-empty ones, in order. An
   empty location is skipped (the source logs a warning for an import).
   */
  function NonEmpty(locs: seq<string>): (refs: seq<string>)
    ensures Subseq(refs, locs)
    ensures "" !in refs
    ensures forall r :: r != "" ==> multiset(refs)[r] == multiset(locs)[r]
    decreases |locs|
  {
    if |locs| == 0 then []
    else
      var rest := NonEmpty(locs[1..]);
      assert locs == [locs[0]] + locs[1..];
      if locs[0] == "" then rest else [locs[0]] + rest
  }

  /** The locations of a list of imports that the import loop visits. */
  function ImportRefs(imports: seq<Import>): seq<string> {
    NonEmpty(seq(|imports|, i requires 0 <= i < |imports| => imports[i].schemaLocation))
  }

  /** The locations of a list of includes that the include loop visits. */
  function IncludeRefs(includes: seq<Include>): seq<string> {
    NonEmpty(seq(|includes|, i requires 0 <= i < |includes| => includes[i].schemaLocation))
  }

  /** The references a schema makes: imports first, then includes, skipping those without a location. */
  function RefsOf(schema: Schema): (refs: seq<string>)
    ensures |ImportRefs(schema.imports)| <= |refs| && refs[..|ImportRefs(schema.imports)|] == ImportRefs(schema.imports)
    ensures refs[|ImportRefs(schema.imports)|..] == IncludeRefs(schema.includes)
    ensures forall r :: r in refs ==> r != ""
  {
    ImportRefs(schema.imports) + IncludeRefs(schema.includes)
  }

  /** A set shrinks, or stays, when more is taken away from it. */
  lemma DiffCard(k: set<string>, v: set<string>, w: set<string>)
    requires v <= w
    ensures |k - w| <= |k - v|
  {
    assert k - w <= k - v;
    SubsetCard(k - w, k - v);
  }

  lemma {:induction false} SubsetCard(a: set<string>, b: set<string>)
    requires a <= b
    ensures |a| <= |b|
    decreases |b|
  {
    if a != {} {
      var x :| x in a;
      SubsetCard(a - {x}, b - {x});
    }
  }

  /**
   `resolveXSDExternals` for a schema and location known to be present. It
   bumps the counter and stops once the counter exceeds the ceiling; it stops
   too when the location is already visited. Otherwise it marks the location
   and handles the schema's references in order, stopping at the first error.
   */
  function Resolve(env: Env, st: State, schema: Schema, loc: string): (r: Step)
    ensures Grows(st, r.st)
    ensures r.st.ticks > st.ticks
    decreases |env.load.Keys - (st.visited + {loc})|, 3, 0
  {
    var st := st.(ticks := st.ticks + 1);
    if st.Level() > MaxRecursion then Step(st, None)
    else if loc in st.visited then Step(st, None)
    else
      var r := ResolveRefs(env, st.(visited := st.visited + {loc}), loc, RefsOf(schema));
      GrowsTransitive(st, st.(visited := st.visited + {loc}), r.st);
      r
  }

  /** The two loops of `resolveXSDExternals` over the references, with the early exit on error. */
  function ResolveRefs(env: Env, st: State, base: string, refs: seq<string>): (r: Step)
    ensures Grows(st, r.st)
    decreases |env.load.Keys - st.visited|, 2, |refs|
  {
    if |refs| == 0 then Step(st, None)
    else
      var first := HandleExternal(env, st, base, refs[0]);
      if first.err.Some? then first
      else
        DiffCard(env.load.Keys, st.visited, first.st.visited);
        var r := ResolveRefs(env, first.st, base, refs[1..]);
        GrowsTransitive(st, first.st, r.st);
        r
  }

  /**
   `handleExternalSchema` with `downloadSchemaIfRequired` inlined: resolve the
   reference, skip it when its key is already visited, else fetch and decode
   it, append the schema and resolve it in turn.
   */
  function HandleExternal(env: Env, st: State, base: string, ref: string): (r: Step)
    ensures Grows(st, r.st)
    decreases |env.load.Keys - st.visited|, 1, 0
  {
    match env.parse(base, ref)
    case Failure(e) => Step(st, Some(e))
    case Success(key) =>
      if key in st.visited then Step(st, None)
      else if key !in env.load then Step(st, Some(FetchError(key)))
      else
        match env.load[key]
        case Failure(e) => Step(st, Some(e))
        case Success(schema) =>
          var next := st.(schemas := st.schemas + [schema], fetched := st.fetched + [key]);
          assert env.load.Keys - st.visited == (env.load.Keys - (st.visited + {key})) + {key};
          var r := Resolve(env, next, schema, key);
          GrowsTransitive(st, next, r.st);
          r
  }

  /**
   `resolveXSDExternals` as called: a missing schema or location is a no-op
   success that leaves even the counter alone.
   */
  function ResolveExternals(env: Env, st: State, schema: Option<Schema>, loc: Option<string>): (r: Step)
    ensures schema.None? || loc.None? ==> r == Step(st, None)
    ensures schema.Some? && loc.Some? ==> r.st.ticks > st.ticks
    ensures Grows(st, r.st)
  {
    if schema.None? || loc.None? then Step(st, None)
    else Resolve(env, st, schema.value, loc.value)
  }

  /** The loop of `unmarshal`: every top-level schema resolved against the same location, stopping at the first error. */
  function ResolveAll(env: Env, st: State, schemas: seq<Schema>, loc: string): (r: Step)
    ensures Grows(st, r.st)
    ensures r.st.ticks >= st.ticks + (if r.err.None? then |schemas| else 1)
    decreases |schemas|
  {
    if |schemas| == 0 then Step(st, None)
    else
      var first := ResolveExternals(env, st, Some(schemas[0]), Some(loc));
      if first.err.Some? then first
      else
        var r := ResolveAll(env, first.st, schemas[1..], loc);
        GrowsTransitive(st, first.st, r.st);
        r
  }

  /** What a call on the generator leaves behind: the generator as updated, and the error returned, if any. */
  datatype Outcome = Outcome(gen: Generator, err: Option<string>)

  /**
   `unmarshal`, given the outcome of fetching and decoding the root document.
   Once the root has decoded, the document is stored, the visited set starts
   afresh, the counter carries on from where it was, and the schemas found
   are appended after the document's own. A resolver error is returned with
   the generator as far as the run got: its counter, visited set and
   appended schemas stay, as Go leaves them on the shared generator.
   */
  function Unmarshal(g: Generator, env: Env, root: Result<Definitions>): (r: Outcome)
    ensures root.Failure? ==> r == Outcome(g, Some(root.error))
    ensures r.err.None? ==> root.Success?
    ensures root.Success? ==> r.gen.wsdl.Some?
    ensures r.gen == g.(wsdl := r.gen.wsdl, resolved := r.gen.resolved, ticks := r.gen.ticks)
    ensures root.Success? ==> r.gen.ticks >= g.ticks + (if r.err.None? then |root.value.schemas| else 1)
    ensures root.Success? ==> r.gen.wsdl.value == root.value.(schemas := r.gen.wsdl.value.schemas)
    ensures root.Success? ==>
      |root.value.schemas| <= |r.gen.wsdl.value.schemas| &&
      r.gen.wsdl.value.schemas[..|root.value.schemas|] == root.value.schemas
  {
    match root
    case Failure(e) => Outcome(g, Some(e))
    case Success(defs) =>
      var step := ResolveAll(env, State({}, g.ticks, [], []), defs.schemas, g.loc);
      var wsdl := defs.(schemas := defs.schemas + step.st.schemas);
      assert wsdl.schemas[..|defs.schemas|] == defs.schemas;
      Outcome(g.(wsdl := Some(wsdl), resolved := step.st.visited, ticks := step.st.ticks), step.err)
  }
}

=== FILE: resolver_proofs.dfy ===
/**
 Properties of the external schema resolver: what the counter does, what
 ends up appended, when a location is fetched at most once, and how the
 top-level loop and the reference loops compose.
 */
module ResolverProofs {

  import opened Wrappers
  import opened Seqs
  import opened Wsdl
  import opened GoWsdl

  // ---------------------------------------------------------------------------
  // The counter and the visited check

  /** Past the ceiling a call only bumps the counter: nothing is marked, fetched or appended. */
  lemma ResolveOverCeiling(env: Env, st: State, schema: Schema, loc: string)
    requires (st.ticks + 1) % 256 > MaxRecursion
    ensures Resolve(env, st, schema, loc) == Step(st.(ticks := st.ticks + 1), None)
  {
  }

  /** A location already visited only bumps the counter. */
  lemma ResolveVisited(env: Env, st: State, schema: Schema, loc: string)
    requires loc in st.visited
    ensures Resolve(env, st, schema, loc) == Step(st.(ticks := st.ticks + 1), None)
  {
  }

  /** Under the ceiling the location is marked visited, whatever happens to its references. */
  lemma ResolveMarks(env: Env, st: State, schema: Schema, loc: string)
    requires (st.ticks + 1) % 256 <= MaxRecursion
    ensures loc in Resolve(env, st, schema, loc).st.visited
  {
  }

  /** The state a call works in once it has decided to expand `loc`. */
  function Marked(st: State, loc: string): State {
    st.(ticks := st.ticks + 1, visited := st.visited + {loc})
  }

  /** Under the ceiling, an unvisited location is marked and its references handled in order. */
  lemma ResolveExpands(env: Env, st: State, schema: Schema, loc: string)
    requires (st.ticks + 1) % 256 <= MaxRecursion && loc !in st.visited
    ensures Resolve(env, st, schema, loc) == ResolveRefs(env, Marked(st, loc), loc, RefsOf(schema))
  {
  }

  /** The schema appended for `key`, with the key logged beside it. */
  function Appended(st: State, key: string, schema: Schema): State {
    st.(schemas := st.schemas + [schema], fetched := st.fetched + [key])
  }

  /** A reference to an unvisited location that loads: its schema is appended and resolved in turn. */
  lemma HandleExternalFetches(env: Env, st: State, base: string, ref: string, key: string)
    requires env.parse(base, ref) == Success(key) && key !in st.visited
    requires key in env.load && env.load[key].Success?
    ensures HandleExternal(env, st, base, ref) ==
      Resolve(env, Appended(st, key, env.load[key].value), env.load[key].value, key)
    ensures |env.load.Keys - (st.visited + {key})| < |env.load.Keys - st.visited|
  {
    assert env.load.Keys - st.visited == (env.load.Keys - (st.visited + {key})) + {key};
  }

  /**
   The counter is a `uint8`: after 255 increments the next one wraps it to 0,
   under the ceiling again, so a state that had long stopped expanding
   expands once more. At 100 the next call is the first one turned away.
   */
  lemma CeilingIsNotSticky(env: Env, schema: Schema, loc: string)
    ensures loc in Resolve(env, State({}, 255, [], []), schema, loc).st.visited
    ensures Resolve(env, State({}, 100, [], []), schema, loc) == Step(State({}, 101, [], []), None)
    ensures loc in Resolve(env, State({}, 99, [], []), schema, loc).st.visited
  {
    ResolveMarks(env, State({}, 255, [], []), schema, loc);
    ResolveMarks(env, State({}, 99, [], []), schema, loc);
  }

  // ---------------------------------------------------------------------------
  // What gets appended

  /** Every appended schema is the decoded document at the key logged beside it. */
  ghost predicate Loaded(env: Env, st: State) {
    && |st.schemas| == |st.fetched|
    && forall i :: 0 <= i < |st.fetched| ==> st.fetched[i] in env.load && env.load[st.fetched[i]] == Success(st.schemas[i])
  }

  lemma {:induction false} ResolveLoaded(env: Env, st: State, schema: Schema, loc: string)
    requires Loaded(env, st)
    ensures Loaded(env, Resolve(env, st, schema, loc).st)
    decreases |env.load.Keys - (st.visited + {loc})|, 3, 0
  {
    if (st.ticks + 1) % 256 > MaxRecursion {
      ResolveOverCeiling(env, st, schema, loc);
    } else if loc in st.visited {
      ResolveVisited(env, st, schema, loc);
    } else {
      ResolveExpands(env, st, schema, loc);
      ResolveRefsLoaded(env, Marked(st, loc), loc, RefsOf(schema));
    }
  }

  lemma {:induction false} ResolveRefsLoaded(env: Env, st: State, base: string, refs: seq<string>)
    requires Loaded(env, st)
    ensures Loaded(env, ResolveRefs(env, st, base, refs).st)
    decreases |env.load.Keys - st.visited|, 2, |refs|
  {
    if |refs| > 0 {
      HandleExternalLoaded(env, st, base, refs[0]);
      var first := HandleExternal(env, st, base, refs[0]);
      if first.err.None? {
        DiffCard(env.load.Keys, st.visited, first.st.visited);
        ResolveRefsLoaded(env, first.st, base, refs[1..]);
      }
    }
  }

  lemma {:induction false} HandleExternalLoaded(env: Env, st: State, base: string, ref: string)
    requires Loaded(env, st)
    ensures Loaded(env, HandleExternal(env, st, base, ref).st)
    decreases |env.load.Keys - st.visited|, 1, 0
  {
    match env.parse(base, ref)
    case Failure(_) =>
    case Success(key) =>
      if key !in st.visited && key in env.load && env.load[key].Success? {
        var schema := env.load[key].value;
        HandleExternalFetches(env, st, base, ref, key);
        assert Loaded(env, Appended(st, key, schema));
        ResolveLoaded(env, Appended(st, key, schema), schema, key);
      }
  }

  // ---------------------------------------------------------------------------
  // Fetched at most once under the ceiling

  /** No key was fetched twice, and every fetched key is marked visited. */
  ghost predicate FetchedOnce(st: State) {
    Distinct(st.fetched) && forall i :: 0 <= i < |st.fetched| ==> st.fetched[i] in st.visited
  }

  /**
   While the counter never passes the ceiling, every schema fetched is marked
   visited before anything else runs, so no location is fetched twice: a
   cycle of imports appends each of its schemas once.
   */
  lemma {:induction false} ResolveFetchesOnce(env: Env, st: State, schema: Schema, loc: string)
    requires Distinct(st.fetched)
    requires forall i :: 0 <= i < |st.fetched| ==> st.fetched[i] in st.visited || st.fetched[i] == loc
    requires Resolve(env, st, schema, loc).st.ticks <= MaxRecursion
    ensures FetchedOnce(Resolve(env, st, schema, loc).st)
    decreases |env.load.Keys - (st.visited + {loc})|, 3, 0
  {
    var n := st.ticks + 1;
    assert n <= Resolve(env, st, schema, loc).st.ticks;
    assert n % 256 <= MaxRecursion by {
      assert 0 <= n < 256;
    }
    if loc in st.visited {
      ResolveVisited(env, st, schema, loc);
    } else {
      ResolveExpands(env, st, schema, loc);
      assert FetchedOnce(Marked(st, loc));
      ResolveRefsFetchesOnce(env, Marked(st, loc), loc, RefsOf(schema));
    }
  }

  lemma {:induction false} ResolveRefsFetchesOnce(env: Env, st: State, base: string, refs: seq<string>)
    requires FetchedOnce(st)
    requires ResolveRefs(env, st, base, refs).st.ticks <= MaxRecursion
    ensures FetchedOnce(ResolveRefs(env, st, base, refs).st)
    decreases |env.load.Keys - st.visited|, 2, |refs|
  {
    if |refs| > 0 {
      var first := HandleExternal(env, st, base, refs[0]);
      if first.err.Some? {
        HandleExternalFetchesOnce(env, st, base, refs[0]);
      } else {
        var r := ResolveRefs(env, first.st, base, refs[1..]);
        assert first.st.ticks <= r.st.ticks;
        HandleExternalFetchesOnce(env, st, base, refs[0]);
        DiffCard(env.load.Keys, st.visited, first.st.visited);
        ResolveRefsFetchesOnce(env, first.st, base, refs[1..]);
      }
    }
  }

  lemma {:induction false} HandleExternalFetchesOnce(env: Env, st: State, base: string, ref: string)
    requires FetchedOnce(st)
    requires HandleExternal(env, st, base, ref).st.ticks <= MaxRecursion
    ensures FetchedOnce(HandleExternal(env, st, base, ref).st)
    decreases |env.load.Keys - st.visited|, 1, 0
  {
    match env.parse(base, ref)
    case Failure(_) =>
    case Success(key) =>
      if key !in st.visited && key in env.load && env.load[key].Success? {
        var schema := env.load[key].value;
        var next := Appended(st, key, schema);
        HandleExternalFetches(env, st, base, ref, key);
        forall i, j | 0 <= i < j < |next.fetched|
          ensures next.fetched[i] != next.fetched[j]
        {
          if j == |st.fetched| {
            assert next.fetched[i] == st.fetched[i] && st.fetched[i] in st.visited;
          } else {
            assert next.fetched[i] == st.fetched[i] && next.fetched[j] == st.fetched[j];
          }
        }
        assert forall i :: 0 <= i < |next.fetched| ==> next.fetched[i] in next.visited || next.fetched[i] == key;
        ResolveFetchesOnce(env, next, schema, key);
      }
  }

  // ---------------------------------------------------------------------------
  // Every reference resolved under the ceiling

  /** Reference `ref`, read against `base`, names a location in `visited`. */
  ghost predicate Covered(env: Env, visited: set<string>, base: string, ref: string) {
    env.parse(base, ref).Success? && env.parse(base, ref).value in visited
  }

  /** Every reference of schema `s`, read against its location `base`, is in `visited`. */
  ghost predicate RefsCovered(env: Env, visited: set<string>, base: string, s: Schema) {
    forall ref :: ref in RefsOf(s) ==> Covered(env, visited, base, ref)
  }

  /** Every schema appended from position `from` on had all its references resolved. */
  ghost predicate Expanded(env: Env, st: State, from: nat) {
    forall i :: from <= i < |st.schemas| && i < |st.fetched| ==>
      RefsCovered(env, st.visited, st.fetched[i], st.schemas[i])
  }

  /** Every location `t` visits beyond those `st` visits is in `extra` or was fetched after `st`. */
  ghost predicate VisitsFetched(st: State, t: State, extra: set<string>) {
    forall k :: k in t.visited ==>
      k in st.visited || k in extra || exists i :: |st.fetched| <= i < |t.fetched| && t.fetched[i] == k
  }

  /** What is expanded stays expanded as the state grows. */
  lemma ExpandedGrows(env: Env, s: State, t: State, from: nat)
    requires |s.schemas| == |s.fetched| && Grows(s, t)
    requires Expanded(env, s, from) && Expanded(env, t, |s.schemas|)
    ensures Expanded(env, t, from)
  {
    forall i | from <= i < |t.schemas| && i < |t.fetched|
      ensures RefsCovered(env, t.visited, t.fetched[i], t.schemas[i])
    {
      if i < |s.schemas| {
        assert t.schemas[i] == t.schemas[..|s.schemas|][i] && t.fetched[i] == t.fetched[..|s.fetched|][i];
        assert RefsCovered(env, s.visited, s.fetched[i], s.schemas[i]);
      }
    }
  }

  /** Newly visited locations compose along two growth steps. */
  lemma VisitsFetchedTransitive(a: State, b: State, c: State, e: set<string>, e': set<string>)
    requires Grows(a, b) && Grows(b, c)
    requires VisitsFetched(a, b, e) && VisitsFetched(b, c, e')
    ensures VisitsFetched(a, c, e + e')
  {
    forall k | k in c.visited
      ensures k in a.visited || k in e + e' || exists i :: |a.fetched| <= i < |c.fetched| && c.fetched[i] == k
    {
      if k !in b.visited && k !in e' {
        var i :| |b.fetched| <= i < |c.fetched| && c.fetched[i] == k;
      } else if k in b.visited && k !in a.visited && k !in e {
        var i :| |a.fetched| <= i < |b.fetched| && b.fetched[i] == k;
        assert c.fetched[i] == c.fetched[..|b.fetched|][i];
      }
    }
  }

  /**
   A run that stays under the ceiling and reports no error marks its
   location; when the location was new, every reference of the schema is
   resolved, and so are the references of every schema appended on the way.
   Any other location it marks was fetched during the run.
   */
  lemma {:induction false} ResolveCovers(env: Env, st: State, schema: Schema, loc: string)
    requires |st.schemas| == |st.fetched|
    requires Resolve(env, st, schema, loc).err.None? && Resolve(env, st, schema, loc).st.ticks <= MaxRecursion
    ensures loc in Resolve(env, st, schema, loc).st.visited
    ensures loc !in st.visited ==> RefsCovered(env, Resolve(env, st, schema, loc).st.visited, loc, schema)
    ensures Expanded(env, Resolve(env, st, schema, loc).st, |st.schemas|)
    ensures VisitsFetched(st, Resolve(env, st, schema, loc).st, {loc})
    decreases |env.load.Keys - (st.visited + {loc})|, 3, 0
  {
    var n := st.ticks + 1;
    assert n <= Resolve(env, st, schema, loc).st.ticks;
    assert n % 256 <= MaxRecursion by {
      assert 0 <= n < 256;
    }
    if loc in st.visited {
      ResolveVisited(env, st, schema, loc);
    } else {
      ResolveExpands(env, st, schema, loc);
      ResolveRefsCovers(env, Marked(st, loc), loc, RefsOf(schema));
    }
  }

  lemma {:induction false} ResolveRefsCovers(env: Env, st: State, base: string, refs: seq<string>)
    requires |st.schemas| == |st.fetched|
    requires ResolveRefs(env, st, base, refs).err.None? && ResolveRefs(env, st, base, refs).st.ticks <= MaxRecursion
    ensures forall ref :: ref in refs ==> Covered(env, ResolveRefs(env, st, base, refs).st.visited, base, ref)
    ensures Expanded(env, ResolveRefs(env, st, base, refs).st, |st.schemas|)
    ensures VisitsFetched(st, ResolveRefs(env, st, base, refs).st, {})
    decreases |env.load.Keys - st.visited|, 2, |refs|
  {
    if |refs| > 0 {
      var first := HandleExternal(env, st, base, refs[0]);
      var r := ResolveRefs(env, first.st, base, refs[1..]);
      assert ResolveRefs(env, st, base, refs) == r;
      HandleExternalCovers(env, st, base, refs[0]);
      DiffCard(env.load.Keys, st.visited, first.st.visited);
      ResolveRefsCovers(env, first.st, base, refs[1..]);
      ExpandedGrows(env, first.st, r.st, |st.schemas|);
      var none: set<string> := {};
      VisitsFetchedTransitive(st, first.st, r.st, none, none);
      assert none + none == none;
      forall ref | ref in refs
        ensures Covered(env, r.st.visited, base, ref)
      {
        if ref != refs[0] {
          assert ref in refs[1..];
        }
      }
    }
  }

  lemma {:induction false} HandleExternalCovers(env: Env, st: State, base: string, ref: string)
    requires |st.schemas| == |st.fetched|
    requires HandleExternal(env, st, base, ref).err.None? && HandleExternal(env, st, base, ref).st.ticks <= MaxRecursion
    ensures Covered(env, HandleExternal(env, st, base, ref).st.visited, base, ref)
    ensures Expanded(env, HandleExternal(env, st, base, ref).st, |st.schemas|)
    ensures VisitsFetched(st, HandleExternal(env, st, base, ref).st, {})
    decreases |env.load.Keys - st.visited|, 1, 0
  {
    assert env.parse(base, ref).Success?;
    var key := env.parse(base, ref).value;
    if key !in st.visited {
      assert key in env.load && env.load[key].Success?;
      var schema := env.load[key].value;
      HandleExternalFetches(env, st, base, ref, key);
      ResolveCovers(env, Appended(st, key, schema), schema, key);
      AppendedCovers(env, st, key, schema, Resolve(env, Appended(st, key, schema), schema, key).st);
    }
  }

  /**
   A schema appended for `key` and then resolved: the run counts as having
   fetched `key`, and the appended schema joins the expanded ones.
   */
  lemma AppendedCovers(env: Env, st: State, key: string, schema: Schema, t: State)
    requires |st.schemas| == |st.fetched|
    requires Grows(Appended(st, key, schema), t)
    requires VisitsFetched(Appended(st, key, schema), t, {key})
    requires Expanded(env, t, |st.schemas| + 1)
    requires RefsCovered(env, t.visited, key, schema)
    ensures VisitsFetched(st, t, {})
    ensures Expanded(env, t, |st.schemas|)
  {
    var next := Appended(st, key, schema);
    assert t.schemas[|st.schemas|] == t.schemas[..|next.schemas|][|st.schemas|] == schema;
    assert t.fetched[|st.fetched|] == t.fetched[..|next.fetched|][|st.fetched|] == key;
    forall k | k in t.visited
      ensures k in st.visited || exists i :: |st.fetched| <= i < |t.fetched| && t.fetched[i] == k
    {
      if k !in st.visited && k == key {
        assert t.fetched[|st.fetched|] == k;
      }
    }
  }

  /** A reference `ref` read against `base` parses, and names the root or a location that loads. */
  ghost predicate Reachable(env: Env, root: string, base: string, ref: string) {
    && env.parse(base, ref).Success?
    && var key := env.parse(base, ref).value;
      key == root || (key in env.load && env.load[key].Success?)
  }

  /** `s` is the decoded document at a location all of whose references are reachable. */
  ghost predicate FetchedAndResolved(env: Env, root: string, s: Schema) {
    exists key :: key in env.load && env.load[key] == Success(s) &&
      forall ref :: ref in RefsOf(s) ==> Reachable(env, root, key, ref)
  }

  // ---------------------------------------------------------------------------
  // Order of processing

  /**
   The reference loop runs the references one after another: once a
   reference fails, none after it is looked at; otherwise the rest carry on
   from the state the first ones left.
   */
  lemma {:induction false} ResolveRefsAppend(env: Env, st: State, base: string, refs: seq<string>, more: seq<string>)
    ensures ResolveRefs(env, st, base, refs).err.Some? ==>
      ResolveRefs(env, st, base, refs + more) == ResolveRefs(env, st, base, refs)
    ensures ResolveRefs(env, st, base, refs).err.None? ==>
      ResolveRefs(env, st, base, refs + more) == ResolveRefs(env, ResolveRefs(env, st, base, refs).st, base, more)
    decreases |refs|
  {
    if |refs| == 0 {
      assert refs + more == more;
    } else {
      assert (refs + more)[0] == refs[0] && (refs + more)[1..] == refs[1..] + more;
      var first := HandleExternal(env, st, base, refs[0]);
      if first.err.None? {
        ResolveRefsAppend(env, first.st, base, refs[1..], more);
      }
    }
  }

  /** All imports are handled before any include; an import that fails stops the includes from being looked at. */
  lemma ImportsBeforeIncludes(env: Env, st: State, base: string, schema: Schema)
    ensures var imports := ResolveRefs(env, st, base, ImportRefs(schema.imports));
      ResolveRefs(env, st, base, RefsOf(schema)) ==
        if imports.err.Some? then imports else ResolveRefs(env, imports.st, base, IncludeRefs(schema.includes))
  {
    ResolveRefsAppend(env, st, base, ImportRefs(schema.imports), IncludeRefs(schema.includes));
  }

  // ---------------------------------------------------------------------------
  // The top-level loop

  /** Once the root location is visited, every further top-level schema only bumps the counter. */
  lemma {:induction false} ResolveAllAfterRoot(env: Env, st: State, schemas: seq<Schema>, loc: string)
    requires loc in st.visited
    ensures ResolveAll(env, st, schemas, loc) == Step(st.(ticks := st.ticks + |schemas|), None)
    decreases |schemas|
  {
    if |schemas| > 0 {
      ResolveVisited(env, st, schemas[0], loc);
      ResolveAllAfterRoot(env, st.(ticks := st.ticks + 1), schemas[1..], loc);
    }
  }

  /**
   All top-level schemas are resolved against the same root location, so
   only the first one expands its references; the others hit the visited
   check and merely count.
   */
  lemma OnlyFirstTopLevelSchemaExpands(env: Env, st: State, schemas: seq<Schema>, loc: string)
    requires |schemas| > 0
    requires (st.ticks + 1) % 256 <= MaxRecursion
    requires Resolve(env, st, schemas[0], loc).err.None?
    ensures var first := Resolve(env, st, schemas[0], loc).st;
      ResolveAll(env, st, schemas, loc) == Step(first.(ticks := first.ticks + |schemas| - 1), None)
  {
    var first := Resolve(env, st, schemas[0], loc).st;
    ResolveMarks(env, st, schemas[0], loc);
    ResolveAllAfterRoot(env, first, schemas[1..], loc);
  }

  /** `s` is the decoded document found at some location. */
  ghost predicate FromSomeLocation(env: Env, s: Schema) {
    exists key :: key in env.load && env.load[key] == Success(s)
  }

  /**
   What `unmarshal` leaves behind on success: the document's own schemas,
   followed by decoded documents fetched during resolution.
   */
  lemma UnmarshalAppendsLoaded(g: Generator, env: Env, defs: Definitions)
    requires Unmarshal(g, env, Success(defs)).err.None?
    ensures forall i :: |defs.schemas| <= i < |Unmarshal(g, env, Success(defs)).gen.wsdl.value.schemas| ==>
      FromSomeLocation(env, Unmarshal(g, env, Success(defs)).gen.wsdl.value.schemas[i])
  {
    var step := ResolveAll(env, State({}, g.ticks, [], []), defs.schemas, g.loc);
    ResolveAllLoaded(env, State({}, g.ticks, [], []), defs.schemas, g.loc);
    var schemas := Unmarshal(g, env, Success(defs)).gen.wsdl.value.schemas;
    assert schemas == defs.schemas + step.st.schemas;
    forall i | |defs.schemas| <= i < |schemas|
      ensures FromSomeLocation(env, schemas[i])
    {
      var k := i - |defs.schemas|;
      assert schemas[i] == step.st.schemas[k];
      var key := step.st.fetched[k];
      assert key in env.load && env.load[key] == Success(schemas[i]);
    }
  }

  lemma {:induction false} ResolveAllLoaded(env: Env, st: State, schemas: seq<Schema>, loc: string)
    requires Loaded(env, st)
    ensures Loaded(env, ResolveAll(env, st, schemas, loc).st)
    decreases |schemas|
  {
    if |schemas| > 0 {
      ResolveLoaded(env, st, schemas[0], loc);
      var first := Resolve(env, st, schemas[0], loc);
      if first.err.None? {
        ResolveAllLoaded(env, first.st, schemas[1..], loc);
      }
    }
  }

  // ---------------------------------------------------------------------------
  // What a successful `unmarshal` under the ceiling guarantees

  /**
   The top-level loop under the ceiling with no error: the root location is
   marked, the first schema's references are resolved when the root was new,
   and so are those of every schema appended.
   */
  lemma ResolveAllCovers(env: Env, st: State, schemas: seq<Schema>, loc: string)
    requires |st.schemas| == |st.fetched|
    requires ResolveAll(env, st, schemas, loc).err.None? && ResolveAll(env, st, schemas, loc).st.ticks <= MaxRecursion
    ensures |schemas| > 0 ==> loc in ResolveAll(env, st, schemas, loc).st.visited
    ensures |schemas| > 0 && loc !in st.visited ==> RefsCovered(env, ResolveAll(env, st, schemas, loc).st.visited, loc, schemas[0])
    ensures Expanded(env, ResolveAll(env, st, schemas, loc).st, |st.schemas|)
    ensures VisitsFetched(st, ResolveAll(env, st, schemas, loc).st, {loc})
  {
    if |schemas| > 0 {
      var first := Resolve(env, st, schemas[0], loc);
      assert first.err.None?;
      var r := ResolveAll(env, st, schemas, loc);
      assert first.st.ticks <= r.st.ticks;
      var n := st.ticks + 1;
      assert n % 256 <= MaxRecursion by {
        assert 0 <= n < 256;
      }
      OnlyFirstTopLevelSchemaExpands(env, st, schemas, loc);
      ResolveCovers(env, st, schemas[0], loc);
      assert r.st.visited == first.st.visited && r.st.schemas == first.st.schemas && r.st.fetched == first.st.fetched;
    }
  }

  /** Reference `ref`, read against `base`, parses to the root or to a location in `fetched`. */
  ghost predicate ResolvedIn(env: Env, root: string, fetched: seq<string>, base: string, ref: string) {
    env.parse(base, ref).Success? && (env.parse(base, ref).value == root || env.parse(base, ref).value in fetched)
  }

  /**
   A reference covered by a run from an empty state names the root or a
   location the run fetched, and so one that loaded.
   */
  lemma CoveredReachable(env: Env, st: State, t: State, root: string, base: string, ref: string)
    requires st.visited == {} && st.fetched == []
    requires VisitsFetched(st, t, {root}) && Loaded(env, t)
    requires Covered(env, t.visited, base, ref)
    ensures ResolvedIn(env, root, t.fetched, base, ref)
    ensures Reachable(env, root, base, ref)
  {
    var key := env.parse(base, ref).value;
    if key != root {
      var i :| 0 <= i < |t.fetched| && t.fetched[i] == key;
    }
  }

  /**
   A successful `unmarshal` that never passes the ceiling has resolved every
   reference of the document's first schema and of every schema it appended.
   Each one parses and names the root or a location the run fetched, whose
   decoded schema sits among the appended ones. So each one named a location
   that fetched and decoded.
   */
  lemma UnmarshalResolvesReferences(g: Generator, env: Env, defs: Definitions)
    requires Unmarshal(g, env, Success(defs)).err.None?
    requires Unmarshal(g, env, Success(defs)).gen.ticks <= MaxRecursion
    ensures var run := ResolveAll(env, State({}, g.ticks, [], []), defs.schemas, g.loc);
      |defs.schemas| > 0 ==> forall ref :: ref in RefsOf(defs.schemas[0]) ==> ResolvedIn(env, g.loc, run.st.fetched, g.loc, ref)
    ensures var run := ResolveAll(env, State({}, g.ticks, [], []), defs.schemas, g.loc);
      var schemas := Unmarshal(g, env, Success(defs)).gen.wsdl.value.schemas;
      forall i :: 0 <= i < |run.st.fetched| ==>
        forall ref :: ref in RefsOf(schemas[|defs.schemas| + i]) ==> ResolvedIn(env, g.loc, run.st.fetched, run.st.fetched[i], ref)
    ensures |defs.schemas| > 0 ==> forall ref :: ref in RefsOf(defs.schemas[0]) ==> Reachable(env, g.loc, g.loc, ref)
    ensures var schemas := Unmarshal(g, env, Success(defs)).gen.wsdl.value.schemas;
      forall i :: |defs.schemas| <= i < |schemas| ==> FetchedAndResolved(env, g.loc, schemas[i])
  {
    var st0 := State({}, g.ticks, [], []);
    var run := ResolveAll(env, st0, defs.schemas, g.loc);
    ResolveAllCovers(env, st0, defs.schemas, g.loc);
    ResolveAllLoaded(env, st0, defs.schemas, g.loc);
    if |defs.schemas| > 0 {
      forall ref | ref in RefsOf(defs.schemas[0])
        ensures ResolvedIn(env, g.loc, run.st.fetched, g.loc, ref) && Reachable(env, g.loc, g.loc, ref)
      {
        CoveredReachable(env, st0, run.st, g.loc, g.loc, ref);
      }
    }
    var schemas := Unmarshal(g, env, Success(defs)).gen.wsdl.value.schemas;
    assert schemas == defs.schemas + run.st.schemas;
    forall i | 0 <= i < |run.st.fetched|
      ensures forall ref :: ref in RefsOf(schemas[|defs.schemas| + i]) ==> ResolvedIn(env, g.loc, run.st.fetched, run.st.fetched[i], ref)
      ensures FetchedAndResolved(env, g.loc, schemas[|defs.schemas| + i])
    {
      var key := run.st.fetched[i];
      assert schemas[|defs.schemas| + i] == run.st.schemas[i];
      assert RefsCovered(env, run.st.visited, key, run.st.schemas[i]);
      forall ref | ref in RefsOf(run.st.schemas[i])
        ensures ResolvedIn(env, g.loc, run.st.fetched, key, ref) && Reachable(env, g.loc, key, ref)
      {
        CoveredReachable(env, st0, run.st, g.loc, key, ref);
      }
      assert key in env.load && env.load[key] == Success(run.st.schemas[i]);
    }
    forall i | |defs.schemas| <= i < |schemas|
      ensures FetchedAndResolved(env, g.loc, schemas[i])
    {
      assert schemas[i] == schemas[|defs.schemas| + (i - |defs.schemas|)];
    }
  }

  /** Location `k` can be had: it is the root, or it fetches and decodes. */
  ghost predicate Loadable(env: Env, root: string, k: string) {
    k == root || (k in env.load && env.load[k].Success?)
  }

  /** The schema found at a loadable location: the document's first schema at the root, else the decoded one. */
  ghost function SchemaAt(env: Env, root: string, first: Schema, k: string): Schema
    requires Loadable(env, root, k)
  {
    if k == root then first else env.load[k].value
  }

  /**
   A chain of references from the root: `keys[0]` is the root, and each
   `refs[j]` is a reference of the schema at `keys[j]` that parses to the
   loadable location `keys[j + 1]`.
   */
  ghost predicate Chain(env: Env, root: string, first: Schema, keys: seq<string>, refs: seq<string>) {
    && |keys| == |refs| + 1 && keys[0] == root
    && (forall j :: 0 <= j < |keys| ==> Loadable(env, root, keys[j]))
    && forall j :: 0 <= j < |refs| ==>
      refs[j] in RefsOf(SchemaAt(env, root, first, keys[j])) && env.parse(keys[j], refs[j]) == Success(keys[j + 1])
  }

  /**
   A successful `unmarshal` under the ceiling reaches every location at the
   end of a chain of references from its first schema: each one other than
   the root was fetched by the run, exactly once, and its decoded schema was
   appended after the document's own.
   */
  lemma {:induction false} UnmarshalReachesChain(g: Generator, env: Env, defs: Definitions, keys: seq<string>, refs: seq<string>)
    requires Unmarshal(g, env, Success(defs)).err.None?
    requires Unmarshal(g, env, Success(defs)).gen.ticks <= MaxRecursion
    requires |defs.schemas| > 0 && Chain(env, g.loc, defs.schemas[0], keys, refs)
    ensures var run := ResolveAll(env, State({}, g.ticks, [], []), defs.schemas, g.loc);
      && Unmarshal(g, env, Success(defs)).gen.wsdl.value.schemas == defs.schemas + run.st.schemas
      && Loaded(env, run.st) && FetchedOnce(run.st)
      && forall j :: 0 <= j < |keys| && keys[j] != g.loc ==> keys[j] in run.st.fetched
    decreases |keys|
  {
    var run := ResolveAll(env, State({}, g.ticks, [], []), defs.schemas, g.loc);
    UnmarshalFetchesOnce(g, env, defs);
    if |keys| > 1 {
      var n := |refs| - 1;
      assert Chain(env, g.loc, defs.schemas[0], keys[..n + 1], refs[..n]);
      UnmarshalReachesChain(g, env, defs, keys[..n + 1], refs[..n]);
      assert forall j :: 0 <= j <= n ==> keys[..n + 1][j] == keys[j];
      SchemaAtResolved(g, env, defs, keys[n], refs[n]);
    }
  }

  /**
   The references of the schema at the root, or at any location the run
   fetched, all name the root or a location the run fetched.
   */
  lemma SchemaAtResolved(g: Generator, env: Env, defs: Definitions, base: string, ref: string)
    requires Unmarshal(g, env, Success(defs)).err.None?
    requires Unmarshal(g, env, Success(defs)).gen.ticks <= MaxRecursion
    requires |defs.schemas| > 0 && Loadable(env, g.loc, base)
    requires base == g.loc || base in ResolveAll(env, State({}, g.ticks, [], []), defs.schemas, g.loc).st.fetched
    requires ref in RefsOf(SchemaAt(env, g.loc, defs.schemas[0], base))
    ensures ResolvedIn(env, g.loc, ResolveAll(env, State({}, g.ticks, [], []), defs.schemas, g.loc).st.fetched, base, ref)
  {
    var run := ResolveAll(env, State({}, g.ticks, [], []), defs.schemas, g.loc);
    UnmarshalFetchesOnce(g, env, defs);
    UnmarshalResolvesReferences(g, env, defs);
    if base != g.loc {
      var i :| 0 <= i < |run.st.fetched| && run.st.fetched[i] == base;
      var schemas := Unmarshal(g, env, Success(defs)).gen.wsdl.value.schemas;
      assert env.load[base] == Success(run.st.schemas[i]);
      assert schemas[|defs.schemas| + i] == run.st.schemas[i];
    }
  }

  /**
   Every reference of the schema at the end of such a chain was resolved by
   the run too: it names the root or a fetched location, so one that loads.
   */
  lemma ChainEndResolved(g: Generator, env: Env, defs: Definitions, keys: seq<string>, refs: seq<string>, ref: string)
    requires Unmarshal(g, env, Success(defs)).err.None?
    requires Unmarshal(g, env, Success(defs)).gen.ticks <= MaxRecursion
    requires |defs.schemas| > 0 && Chain(env, g.loc, defs.schemas[0], keys, refs)
    requires ref in RefsOf(SchemaAt(env, g.loc, defs.schemas[0], keys[|keys| - 1]))
    ensures ResolvedIn(env, g.loc, ResolveAll(env, State({}, g.ticks, [], []), defs.schemas, g.loc).st.fetched, keys[|keys| - 1], ref)
    ensures Reachable(env, g.loc, keys[|keys| - 1], ref)
  {
    var run := ResolveAll(env, State({}, g.ticks, [], []), defs.schemas, g.loc);
    var base := keys[|keys| - 1];
    UnmarshalReachesChain(g, env, defs, keys, refs);
    SchemaAtResolved(g, env, defs, base, ref);
    var key := env.parse(base, ref).value;
    if key != g.loc {
      var i :| 0 <= i < |run.st.fetched| && run.st.fetched[i] == key;
    }
  }

  /**
   So a failure anywhere along a chain propagates: when the last location of
   a chain from the first schema has a reference that does not parse, or names
   a location other than the root that cannot be fetched or decoded,
   `unmarshal` fails, unless the counter has passed the ceiling.
   */
  lemma UnmarshalPropagatesFailure(g: Generator, env: Env, defs: Definitions, keys: seq<string>, refs: seq<string>, ref: string)
    requires |defs.schemas| > 0 && Chain(env, g.loc, defs.schemas[0], keys, refs)
    requires ref in RefsOf(SchemaAt(env, g.loc, defs.schemas[0], keys[|keys| - 1]))
    requires !Reachable(env, g.loc, keys[|keys| - 1], ref)
    ensures Unmarshal(g, env, Success(defs)).err.Some? || Unmarshal(g, env, Success(defs)).gen.ticks > MaxRecursion
  {
    if Unmarshal(g, env, Success(defs)).err.None? && Unmarshal(g, env, Success(defs)).gen.ticks <= MaxRecursion {
      ChainEndResolved(g, env, defs, keys, refs, ref);
    }
  }

  /** The top-level loop keeps every location fetched at most once while under the ceiling. */
  lemma {:induction false} ResolveAllFetchesOnce(env: Env, st: State, schemas: seq<Schema>, loc: string)
    requires FetchedOnce(st)
    requires ResolveAll(env, st, schemas, loc).st.ticks <= MaxRecursion
    ensures FetchedOnce(ResolveAll(env, st, schemas, loc).st)
    decreases |schemas|
  {
    if |schemas| > 0 {
      var first := Resolve(env, st, schemas[0], loc);
      assert first.st.ticks <= ResolveAll(env, st, schemas, loc).st.ticks;
      ResolveFetchesOnce(env, st, schemas[0], loc);
      if first.err.None? {
        ResolveAllFetchesOnce(env, first.st, schemas[1..], loc);
      }
    }
  }

  /**
   The run behind a successful `unmarshal` under the ceiling: its appended
   schemas follow the document's own, each is the decoded document at the
   location logged beside it, and no location was fetched twice.
   */
  lemma UnmarshalFetchesOnce(g: Generator, env: Env, defs: Definitions)
    requires Unmarshal(g, env, Success(defs)).err.None?
    requires Unmarshal(g, env, Success(defs)).gen.ticks <= MaxRecursion
    ensures var run := ResolveAll(env, State({}, g.ticks, [], []), defs.schemas, g.loc);
      && run.err.None?
      && Unmarshal(g, env, Success(defs)).gen.wsdl.value.schemas == defs.schemas + run.st.schemas
      && Unmarshal(g, env, Success(defs)).gen.resolved == run.st.visited
      && Loaded(env, run.st)
      && FetchedOnce(run.st)
  {
    var st0 := State({}, g.ticks, [], []);
    ResolveAllLoaded(env, st0, defs.schemas, g.loc);
    ResolveAllFetchesOnce(env, st0, defs.schemas, g.loc);
  }

  // ---------------------------------------------------------------------------
  // Where errors come from

  /** `e` is an error the outside world can produce: a failed reference resolution, fetch or decode. */
  ghost predicate EnvError(env: Env, e: string) {
    || (exists base, ref :: env.parse(base, ref) == Failure(e))
    || (exists key :: key in env.load && env.load[key] == Failure(e))
    || (exists key :: key !in env.load && e == FetchError(key))
  }

  lemma {:induction false} ResolveErrors(env: Env, st: State, schema: Schema, loc: string)
    ensures Resolve(env, st, schema, loc).err.Some? ==> EnvError(env, Resolve(env, st, schema, loc).err.value)
    decreases |env.load.Keys - (st.visited + {loc})|, 3, 0
  {
    if (st.ticks + 1) % 256 > MaxRecursion {
      ResolveOverCeiling(env, st, schema, loc);
    } else if loc in st.visited {
      ResolveVisited(env, st, schema, loc);
    } else {
      ResolveExpands(env, st, schema, loc);
      ResolveRefsErrors(env, Marked(st, loc), loc, RefsOf(schema));
    }
  }

  lemma {:induction false} ResolveRefsErrors(env: Env, st: State, base: string, refs: seq<string>)
    ensures ResolveRefs(env, st, base, refs).err.Some? ==> EnvError(env, ResolveRefs(env, st, base, refs).err.value)
    decreases |env.load.Keys - st.visited|, 2, |refs|
  {
    if |refs| > 0 {
      HandleExternalErrors(env, st, base, refs[0]);
      var first := HandleExternal(env, st, base, refs[0]);
      if first.err.None? {
        DiffCard(env.load.Keys, st.visited, first.st.visited);
        ResolveRefsErrors(env, first.st, base, refs[1..]);
      }
    }
  }

  lemma {:induction false} HandleExternalErrors(env: Env, st: State, base: string, ref: string)
    ensures HandleExternal(env, st, base, ref).err.Some? ==> EnvError(env, HandleExternal(env, st, base, ref).err.value)
    decreases |env.load.Keys - st.visited|, 1, 0
  {
    match env.parse(base, ref)
    case Failure(e) =>
      assert env.parse(base, ref) == Failure(e);
    case Success(key) =>
      if key !in st.visited {
        if key !in env.load {
          assert FetchError(key) == HandleExternal(env, st, base, ref).err.value;
        } else if env.load[key].Failure? {
          assert env.load[key] == Failure(HandleExternal(env, st, base, ref).err.value);
        } else {
          var schema := env.load[key].value;
          HandleExternalFetches(env, st, base, ref, key);
          ResolveErrors(env, Appended(st, key, schema), schema, key);
        }
      }
  }

  lemma {:induction false} ResolveAllErrors(env: Env, st: State, schemas: seq<Schema>, loc: string)
    ensures ResolveAll(env, st, schemas, loc).err.Some? ==> EnvError(env, ResolveAll(env, st, schemas, loc).err.value)
    decreases |schemas|
  {
    if |schemas| > 0 {
      ResolveErrors(env, st, schemas[0], loc);
      var first := Resolve(env, st, schemas[0], loc);
      if first.err.None? {
        ResolveAllErrors(env, first.st, schemas[1..], loc);
      }
    }
  }

  /**
   `unmarshal` fails only when the root document could not be had, or when
   resolving a reference, fetching or decoding a schema failed somewhere in
   the recursion; the error it returns is that one.
   */
  lemma UnmarshalErrors(g: Generator, env: Env, root: Result<Definitions>)
    requires Unmarshal(g, env, root).err.Some?
    ensures root.Failure? || EnvError(env, Unmarshal(g, env, root).err.value)
  {
    if root.Success? {
      ResolveAllErrors(env, State({}, g.ticks, [], []), root.value.schemas, g.loc);
    }
  }
}

=== FILE: seqs.dfy ===
/**
 Generic facts about sequences: the subsequence order, duplicate-freedom,
 and Go's `strings.Split` / `strings.Join` over a one-element separator.
 */
module Seqs {

  import opened Wrappers

  /** `a` can be obtained from `b` by deleting elements, keeping the order of the rest. */
  ghost predicate Subseq<T>(a: seq<T>, b: seq<T>)
    decreases |b|
  {
    |a| == 0 || (|b| > 0 && ((a[0] == b[0] && Subseq(a[1..], b[1..])) || Subseq(a, b[1..])))
  }

  /** No element occurs twice. */
  ghost predicate Distinct<T>(s: seq<T>) {
    forall i, j :: 0 <= i < j < |s| ==> s[i] != s[j]
  }

  /** A concatenation is duplicate-free exactly when both halves are and they share no element. */
  lemma DistinctConcat<T>(a: seq<T>, b: seq<T>)
    ensures Distinct(a + b) <==> Distinct(a) && Distinct(b) && forall i, j :: 0 <= i < |a| && 0 <= j < |b| ==> a[i] != b[j]
  {
    var c := a + b;
    assert forall i :: 0 <= i < |a| ==> c[i] == a[i];
    assert forall j :: 0 <= j < |b| ==> c[|a| + j] == b[j];
    if Distinct(c) {
      forall i, j | 0 <= i < j < |b|
        ensures b[i] != b[j]
      {
        assert c[|a| + i] == b[i] && c[|a| + j] == b[j];
      }
      forall i, j | 0 <= i < |a| && 0 <= j < |b|
        ensures a[i] != b[j]
      {
        assert c[i] == a[i] && c[|a| + j] == b[j];
      }
    }
    if Distinct(a) && Distinct(b) && forall i, j :: 0 <= i < |a| && 0 <= j < |b| ==> a[i] != b[j] {
      forall i, j | 0 <= i < j < |c|
        ensures c[i] != c[j]
      {
        if j < |a| {
        } else if i < |a| {
          assert c[j] == b[j - |a|];
        } else {
          assert c[i] == b[i - |a|] && c[j] == b[j - |a|];
        }
      }
    }
  }

  /** Go's `strings.Split(s, string(sep))`: the pieces between separators; never empty. */
  function Split<T(==)>(s: seq<T>, sep: T): (parts: seq<seq<T>>)
    ensures |parts| >= 1
    decreases |s|
  {
    if |s| == 0 then [[]]
    else if s[0] == sep then [[]] + Split(s[1..], sep)
    else
      var rest := Split(s[1..], sep);
      [[s[0]] + rest[0]] + rest[1..]
  }

  /** Go's `strings.Join(parts, string(sep))`. */
  function Join<T>(parts: seq<seq<T>>, sep: T): seq<T>
    decreases |parts|
  {
    if |parts| == 0 then []
    else if |parts| == 1 then parts[0]
    else parts[0] + [sep] + Join(parts[1..], sep)
  }

  /** No piece produced by `Split` contains the separator, and there is one more piece than separators. */
  lemma {:induction false} SplitPieces<T>(s: seq<T>, sep: T)
    ensures forall i :: 0 <= i < |Split(s, sep)| ==> sep !in Split(s, sep)[i]
    ensures |Split(s, sep)| == multiset(s)[sep] + 1
    decreases |s|
  {
    if |s| > 0 {
      SplitPieces(s[1..], sep);
      assert s == [s[0]] + s[1..];
      assert multiset(s) == multiset{s[0]} + multiset(s[1..]);
    }
  }

  /** Joining the pieces of a split gives back the original sequence. */
  lemma {:induction false} JoinSplit<T>(s: seq<T>, sep: T)
    ensures Join(Split(s, sep), sep) == s
    decreases |s|
  {
    if |s| > 0 {
      JoinSplit(s[1..], sep);
      var rest := Split(s[1..], sep);
      if s[0] != sep {
        var parts := Split(s, sep);
        assert parts == [[s[0]] + rest[0]] + rest[1..];
        if |rest| == 1 {
          assert Join(rest, sep) == rest[0];
        } else {
          assert parts[1..] == rest[1..];
          assert Join(rest, sep) == rest[0] + [sep] + Join(rest[1..], sep);
        }
      }
    }
  }

  /** Splitting a piece free of the separator, followed by the separator, peels that piece off. */
  lemma {:induction false} SplitAfterPiece<T>(p: seq<T>, sep: T, t: seq<T>)
    requires sep !in p
    ensures Split(p + [sep] + t, sep) == [p] + Split(t, sep)
    decreases |p|
  {
    if |p| == 0 {
      assert p + [sep] + t == [sep] + t;
      assert ([sep] + t)[1..] == t;
    } else {
      SplitAfterPiece(p[1..], sep, t);
      assert (p + [sep] + t)[1..] == p[1..] + [sep] + t;
      assert p == [p[0]] + p[1..];
    }
  }

  /** Splitting a join of separator-free pieces gives back the pieces. */
  lemma {:induction false} SplitJoin<T>(parts: seq<seq<T>>, sep: T)
    requires |parts| >= 1
    requires forall i :: 0 <= i < |parts| ==> sep !in parts[i]
    ensures Split(Join(parts, sep), sep) == parts
    decreases |parts|
  {
    if |parts| == 1 {
      SplitNoSep(parts[0], sep);
    } else {
      SplitJoin(parts[1..], sep);
      SplitAfterPiece(parts[0], sep, Join(parts[1..], sep));
      assert parts == [parts[0]] + parts[1..];
    }
  }

  /** A sequence without the separator splits into itself alone. */
  lemma {:induction false} SplitNoSep<T>(s: seq<T>, sep: T)
    requires sep !in s
    ensures Split(s, sep) == [s]
    decreases |s|
  {
    if |s| > 0 {
      SplitNoSep(s[1..], sep);
      assert s == [s[0]] + s[1..];
    }
  }

  /** Appending one more piece to a non-empty join adds the separator and the piece. */
  lemma {:induction false} JoinSnoc<T>(parts: seq<seq<T>>, x: seq<T>, sep: T)
    requires |parts| >= 1
    ensures Join(parts + [x], sep) == Join(parts, sep) + [sep] + x
    decreases |parts|
  {
    if |parts| > 1 {
      JoinSnoc(parts[1..], x, sep);
      assert (parts + [x])[1..] == parts[1..] + [x];
    }
  }

  /** The index of the first element satisfying `p`: a Go `for … range` loop with an early return. */
  function FirstIndex<T>(xs: seq<T>, p: T -> bool): (r: Option<nat>)
    ensures r.None? <==> forall k :: 0 <= k < |xs| ==> !p(xs[k])
    ensures r.Some? ==> r.value < |xs| && p(xs[r.value]) && forall k :: 0 <= k < r.value ==> !p(xs[k])
    decreases |xs|
  {
    if |xs| == 0 then None
    else if p(xs[0]) then Some(0)
    else match FirstIndex(xs[1..], p)
      case None => None
      case Some(k) => Some(k + 1)
  }

  /** How a sequence is laid out around the first one or two pieces of its split. */
  lemma SplitShape<T>(s: seq<T>, sep: T)
    ensures forall i :: 0 <= i < |Split(s, sep)| ==> sep !in Split(s, sep)[i]
    ensures |Split(s, sep)| == multiset(s)[sep] + 1
    ensures |Split(s, sep)| == 1 ==> Split(s, sep)[0] == s
    ensures |Split(s, sep)| > 1 ==> s == Split(s, sep)[0] + [sep] + Join(Split(s, sep)[1..], sep)
    ensures |Split(s, sep)| == 2 ==> s == Split(s, sep)[0] + [sep] + Split(s, sep)[1]
  {
    SplitPieces(s, sep);
    JoinSplit(s, sep);
  }
}

=== FILE: text.dfy ===
/**
 Character classes and string primitives from Go's `unicode` and `strings`
 packages that the generator relies on. Letter, digit and case handling is
 restricted to ASCII; `unicode.IsSpace` is modelled exactly.
 */
module Text {

  predicate IsLetter(c: char) {
    ('a' <= c <= 'z') || ('A' <= c <= 'Z')
  }

  predicate IsDigit(c: char) {
    '0' <= c <= '9'
  }

  predicate IsLower(c: char) {
    'a' <= c <= 'z'
  }

  /** A character Go accepts inside an identifier: a letter, a digit or `_`. */
  predicate IsIdentChar(c: char) {
    IsLetter(c) || IsDigit(c) || c == '_'
  }

  /** Go's `unicode.IsSpace`: the Unicode White_Space property. */
  predicate IsSpace(c: char) {
    || ('\t' <= c <= '\r')          // \t \n \v \f \r
    || c == ' '
    || c == '\U{85}' || c == '\U{A0}' || c == '\U{1680}'
    || ('\U{2000}' <= c <= '\U{200A}')
    || c == '\U{2028}' || c == '\U{2029}' || c == '\U{202F}' || c == '\U{205F}'
    || c == '\U{3000}'
  }

  function ToUpper(c: char): (u: char)
    ensures !IsLower(u)
    ensures IsLower(c) ==> u as int == c as int - 32
    ensures !IsLower(c) ==> u == c
  {
    if IsLower(c) then (c as int - 32) as char else c
  }

  function ToLower(c: char): (l: char)
    ensures !('A' <= l <= 'Z')
    ensures 'A' <= c <= 'Z' ==> l as int == c as int + 32
    ensures !('A' <= c <= 'Z') ==> l == c
  {
    if 'A' <= c <= 'Z' then (c as int + 32) as char else c
  }

  /** Go's `strings.ToLower` restricted to ASCII: upper-case ASCII letters are lowered, every other character is kept. */
  function Lower(s: string): (r: string)
    ensures |r| == |s|
    ensures forall i :: 0 <= i < |s| ==> r[i] == ToLower(s[i])
  {
    seq(|s|, i requires 0 <= i < |s| => ToLower(s[i]))
  }

  /** Go's `strings.EqualFold`: equality up to case. */
  predicate EqualFold(a: string, b: string) {
    Lower(a) == Lower(b)
  }

  /** Go's `strings.TrimLeftFunc(s, unicode.IsSpace)`. */
  function TrimLeftSpace(s: string): (r: string)
    ensures |r| <= |s|
    decreases |s|
  {
    if |s| > 0 && IsSpace(s[0]) then TrimLeftSpace(s[1..]) else s
  }

  /** `TrimLeftSpace` removes exactly the leading run of white space. */
  lemma {:induction false} TrimLeftSpaceSpec(s: string)
    ensures var r := TrimLeftSpace(s);
      && r == s[|s| - |r|..]
      && (forall i :: 0 <= i < |s| - |r| ==> IsSpace(s[i]))
      && (|r| == 0 || !IsSpace(r[0]))
    decreases |s|
  {
    if |s| > 0 && IsSpace(s[0]) {
      TrimLeftSpaceSpec(s[1..]);
    }
  }

  /** Go's `strings.TrimRightFunc(s, unicode.IsSpace)`. */
  function TrimRightSpace(s: string): (r: string)
    ensures |r| <= |s|
    decreases |s|
  {
    if |s| > 0 && IsSpace(s[|s| - 1]) then TrimRightSpace(s[..|s| - 1]) else s
  }

  /** `TrimRightSpace` removes exactly the trailing run of white space. */
  lemma {:induction false} TrimRightSpaceSpec(s: string)
    ensures var r := TrimRightSpace(s);
      && r == s[..|r|]
      && (forall i :: |r| <= i < |s| ==> IsSpace(s[i]))
      && (|r| == 0 || !IsSpace(r[|r| - 1]))
    decreases |s|
  {
    if |s| > 0 && IsSpace(s[|s| - 1]) {
      TrimRightSpaceSpec(s[..|s| - 1]);
    }
  }

  /** Go's `strings.TrimSpace`. */
  function TrimSpace(s: string): (r: string)
  {
    TrimRightSpace(TrimLeftSpace(s))
  }

  /** `r` is `s` with a (possibly empty) run of white space removed at each end. */
  ghost predicate IsTrimmingOf(r: string, s: string) {
    exists i, j :: 0 <= i <= j <= |s| && r == s[i..j]
      && (forall k :: 0 <= k < i ==> IsSpace(s[k]))
      && (forall k :: j <= k < |s| ==> IsSpace(s[k]))
  }

  /**
   `TrimSpace` removes exactly the leading and trailing white space: its result
   is an infix of the input framed by white space, and starts and ends with a
   non-space character unless it is empty.
   */
  lemma TrimSpaceSpec(s: string)
    ensures IsTrimmingOf(TrimSpace(s), s)
    ensures TrimSpace(s) == "" || (!IsSpace(TrimSpace(s)[0]) && !IsSpace(TrimSpace(s)[|TrimSpace(s)| - 1]))
    ensures TrimSpace(s) == "" <==> (forall k :: 0 <= k < |s| ==> IsSpace(s[k]))
  {
    var l := TrimLeftSpace(s);
    var r := TrimRightSpace(l);
    var i := |s| - |l|;
    var j := i + |r|;
    assert l == s[i..] && (forall k :: 0 <= k < i ==> IsSpace(s[k])) && (|l| == 0 || !IsSpace(l[0])) by {
      TrimLeftSpaceSpec(s);
    }
    assert r == l[..|r|] && (forall k :: |r| <= k < |l| ==> IsSpace(l[k])) && (|r| == 0 || !IsSpace(r[|r| - 1])) by {
      TrimRightSpaceSpec(l);
    }
    assert r == s[i..j];
    assert forall k :: j <= k < |s| ==> IsSpace(s[k]) by {
      forall k | j <= k < |s|
        ensures IsSpace(s[k])
      {
        assert s[k] == l[k - i];
      }
    }
    assert IsTrimmingOf(r, s);
    if r != "" {
      assert r[0] == l[0];
      assert !IsSpace(s[i]);
    }
  }
}

=== FILE: tmpl_funcs.dfy ===
/**
 The template helper functions of the generator: identifier sanitising,
 keyword escaping, namespace-prefix stripping, XSD-to-Go type mapping,
 export capitalisation, comment rendering, quote escaping, `dict`, and the
 three lookups over a WSDL document used while rendering operations.
 */
module TmplFuncs {

  import opened Wrappers
  import opened Seqs
  import opened Text
  import opened Wsdl

  /** The generator options the helpers consult. */
  datatype Options = Options(ignoreTypeNs: bool, exportAllTypes: bool)

  /** The 25 keywords of the Go language, independent of the escaping table below. */
  const GoKeywords: set<string> := {
    "break", "case", "chan", "const", "continue", "default", "defer", "else",
    "fallthrough", "for", "func", "go", "goto", "if", "import", "interface",
    "map", "package", "range", "return", "select", "struct", "switch", "type", "var"
  }

  /** The escaping table the generator uses for reserved words: each keyword followed by `_`. */
  const ReservedWords: map<string, string> := map k | k in GoKeywords :: k + "_"

  /** XSD primitive local names, lower-cased, and the Go types they map to. */
  const Xsd2GoTypes: map<string, string> := map[
    "string" := "string",
    "token" := "string",
    "float" := "float32",
    "double" := "float64",
    "decimal" := "float64",
    "integer" := "int32",
    "int" := "int32",
    "short" := "int16",
    "byte" := "int8",
    "long" := "int64",
    "boolean" := "bool",
    "datetime" := "time.Time",
    "date" := "time.Time",
    "time" := "time.Time",
    "base64binary" := "[]byte",
    "hexbinary" := "[]byte",
    "unsignedint" := "uint32",
    "unsignedshort" := "uint16",
    "unsignedbyte" := "byte",
    "unsignedlong" := "uint64",
    "anytype" := "interface{}"
  ]

  /** A Go map index: the zero value `""` for a missing key. */
  function Lookup(m: map<string, string>, k: string): (v: string)
    ensures k in m ==> v == m[k]
    ensures k !in m ==> v == ""
  {
    if k in m then m[k] else ""
  }

  /** Every Go keyword starts with a lower-case letter. */
  lemma KeywordsStartLower()
    ensures forall k :: k in GoKeywords ==> |k| > 0 && IsLower(k[0])
  {
  }

  // ---------------------------------------------------------------------------
  // Identifiers

  /**
   `normalize`: keeps the letters, digits and underscores of `value`, in order,
   and drops every other character.
   */
  function Normalize(value: string): (r: string)
    ensures Subseq(r, value)
    ensures forall i :: 0 <= i < |r| ==> IsIdentChar(r[i])
    decreases |value|
  {
    if |value| == 0 then ""
    else
      var rest := Normalize(value[1..]);
      if IsIdentChar(value[0]) then [value[0]] + rest else rest
  }

  /** `Normalize` keeps every occurrence of every identifier character: nothing it should keep is lost. */
  lemma {:induction false} NormalizeCounts(value: string, c: char)
    requires IsIdentChar(c)
    ensures multiset(Normalize(value))[c] == multiset(value)[c]
    decreases |value|
  {
    if |value| > 0 {
      NormalizeCounts(value[1..], c);
      assert value == [value[0]] + value[1..];
      assert multiset(value) == multiset{value[0]} + multiset(value[1..]);
    }
  }

  /** A string made only of identifier characters is left alone by `Normalize`. */
  lemma {:induction false} NormalizeKeepsIdentifiers(value: string)
    requires forall i :: 0 <= i < |value| ==> IsIdentChar(value[i])
    ensures Normalize(value) == value
    decreases |value|
  {
    if |value| > 0 {
      NormalizeKeepsIdentifiers(value[1..]);
    }
  }

  /** `Normalize` is idempotent. */
  lemma NormalizeIdempotent(value: string)
    ensures Normalize(Normalize(value)) == Normalize(value)
  {
    NormalizeKeepsIdentifiers(Normalize(value));
  }

  /** An identifier whose first character is kept by `Normalize` keeps it in front. */
  lemma NormalizeFirst(value: string)
    requires |value| > 0 && IsIdentChar(value[0])
    ensures |Normalize(value)| > 0 && Normalize(value)[0] == value[0]
  {
  }

  /**
   `replaceReservedWords`: a Go keyword gets a trailing `_`; anything else is
   normalised. The keyword test looks at the raw identifier, before it is
   normalised.
   */
  function ReplaceReservedWords(identifier: string): (r: string)
    ensures identifier in GoKeywords ==> r == identifier + "_"
    ensures identifier !in GoKeywords ==> r == Normalize(identifier)
  {
    var value := Lookup(ReservedWords, identifier);
    if value != "" then value else Normalize(identifier)
  }

  /**
   Because the keyword test precedes normalisation, an identifier that only
   becomes a keyword once punctuation is dropped comes out as that keyword.
   */
  lemma KeywordTestPrecedesNormalize()
    ensures ReplaceReservedWords("ty-pe") == "type"
    ensures "type" in GoKeywords
  {
    assert "ty-pe" !in GoKeywords;
    assert Normalize("ty-pe") == "type" by {
      assert Normalize("e") == "e";
      assert Normalize("pe") == "pe";
      assert Normalize("-pe") == "pe";
      assert Normalize("y-pe") == "ype";
    }
  }

  /** Sanitising example: a decorated name loses its punctuation. */
  lemma NormalizeExample()
    ensures Normalize("Order-#1") == "Order1"
  {
    assert Normalize("1") == "1";
    assert Normalize("#1") == "1";
    assert Normalize("-#1") == "1";
    assert Normalize("r-#1") == "r1";
    assert Normalize("er-#1") == "er1";
    assert Normalize("der-#1") == "der1";
    assert Normalize("rder-#1") == "rder1";
  }

  /** Escaping example: the keyword `type` is suffixed. */
  lemma ReservedWordExample()
    ensures ReplaceReservedWords("type") == "type_"
  {
    assert "type" in GoKeywords;
  }

  // ---------------------------------------------------------------------------
  // Namespace prefixes

  /** `stripns`: drops a namespace prefix; the result never contains a colon. */
  function StripNs(xsdType: string): (r: string)
    ensures ':' !in r
  {
    var parts := Split(xsdType, ':');
    SplitShape(xsdType, ':');
    var t := if |parts| == 2 then parts[1] else parts[0];
    t
  }

  /**
   What `StripNs` keeps: with exactly one `:` the text after it, otherwise (no
   colon, or several) the text before the first colon.
   */
  lemma StripNsSpec(xsdType: string)
    ensures var r := StripNs(xsdType);
      multiset(xsdType)[':'] == 1 ==>
        |r| < |xsdType| && r == xsdType[|xsdType| - |r|..] && xsdType[|xsdType| - |r| - 1] == ':'
    ensures var r := StripNs(xsdType);
      multiset(xsdType)[':'] != 1 ==>
        |r| <= |xsdType| && r == xsdType[..|r|] && (|r| == |xsdType| || xsdType[|r|] == ':')
  {
    SplitShape(xsdType, ':');
    var parts := Split(xsdType, ':');
    var r := StripNs(xsdType);
    if |parts| == 2 {
      assert r == parts[1];
      assert xsdType == parts[0] + [':'] + parts[1];
      assert xsdType[|xsdType| - |r|..] == parts[1];
    } else if |parts| == 1 {
      assert r == xsdType;
    } else {
      var rest := Join(parts[1..], ':');
      assert r == parts[0];
      assert xsdType == parts[0] + [':'] + rest;
      assert xsdType[..|r|] == parts[0];
    }
  }

  /** `removeNS`: the same split, written a second time in the source; it agrees with `StripNs`. */
  function RemoveNs(xsdType: string): (r: string)
    ensures r == StripNs(xsdType)
  {
    var parts := Split(xsdType, ':');
    if |parts| == 2 then parts[1] else parts[0]
  }

  // ---------------------------------------------------------------------------
  // Export capitalisation

  /**
   The package-level `makePublic`: upper-cases the first character and leaves
   the rest, and the length, unchanged.
   */
  function MakePublic(identifier: string): (r: string)
    ensures |r| == |identifier|
    ensures forall i :: 1 <= i < |r| ==> r[i] == identifier[i]
    ensures |r| > 0 ==> !IsLower(r[0]) && ToLower(r[0]) == ToLower(identifier[0])
    ensures |r| > 0 && !IsLower(identifier[0]) ==> r == identifier
  {
    if |identifier| == 0 then identifier
    else [ToUpper(identifier[0])] + identifier[1..]
  }

  /** `MakePublic` is idempotent. */
  lemma MakePublicIdempotent(identifier: string)
    ensures MakePublic(MakePublic(identifier)) == MakePublic(identifier)
  {
  }

  /**
   The template's `makePublic`/`makeFieldPublic`: only the first character
   can change, and it is capitalised exactly when all types are exported.
   */
  function ExportIfEnabled(opts: Options, identifier: string): (r: string)
    ensures |r| == |identifier|
    ensures forall i :: 1 <= i < |r| ==> r[i] == identifier[i]
    ensures opts.exportAllTypes && |r| > 0 ==> !IsLower(r[0]) && ToLower(r[0]) == ToLower(identifier[0])
    ensures !opts.exportAllTypes ==> r == identifier
  {
    if !opts.exportAllTypes then identifier else MakePublic(identifier)
  }

  /** Applying the template's `makePublic` a second time changes nothing. */
  lemma ExportIfEnabledIdempotent(opts: Options, identifier: string)
    ensures ExportIfEnabled(opts, ExportIfEnabled(opts, identifier)) == ExportIfEnabled(opts, identifier)
  {
    MakePublicIdempotent(identifier);
  }

  // ---------------------------------------------------------------------------
  // Type mapping

  /** An XSD type reference names a primitive when its local name, lower-cased, is in the table. */
  predicate IsPrimitive(xsdType: string) {
    Lower(StripNs(xsdType)) in Xsd2GoTypes
  }

  /** The name a non-primitive type is generated under, before capitalisation: namespace glued in front unless ignored. */
  function QualifiedName(opts: Options, xsdType: string, ns: string): string {
    var t := StripNs(xsdType);
    if !opts.ignoreTypeNs && ns != "" then ns + t else t
  }

  /** No Go type in the primitive table is a pointer type. */
  lemma PrimitiveTargetsArePlain()
    ensures forall k :: k in Xsd2GoTypes ==> |Xsd2GoTypes[k]| > 0 && Xsd2GoTypes[k][0] != '*'
  {
  }

  /** A capitalised name never matches a keyword, so escaping reduces to normalising. */
  lemma PublicNameIsNoKeyword(t: string)
    ensures MakePublic(t) !in GoKeywords
    ensures ReplaceReservedWords(MakePublic(t)) == Normalize(MakePublic(t))
  {
    KeywordsStartLower();
  }

  /**
   `toGoTypeNs`: a primitive maps through the table (the namespace argument is
   then irrelevant); any other name becomes a pointer to its capitalised,
   normalised qualified name. The reserved-word step never fires here, and the
   result tells the two cases apart.
   */
  function ToGoTypeNs(opts: Options, xsdType: string, ns: string): (r: string)
    ensures IsPrimitive(xsdType) ==> r == Xsd2GoTypes[Lower(StripNs(xsdType))]
    ensures !IsPrimitive(xsdType) ==> r == "*" + Normalize(MakePublic(QualifiedName(opts, xsdType, ns)))
  {
    var t := StripNs(xsdType);
    var value := Lookup(Xsd2GoTypes, Lower(t));
    if value != "" then value
    else
      var t' := if !opts.ignoreTypeNs && ns != "" then ns + t else t;
      PublicNameIsNoKeyword(t');
      "*" + ReplaceReservedWords(MakePublic(t'))
  }

  /**
   The two cases of `ToGoTypeNs` never meet: a result is a Go type of the
   primitive table exactly when the input names a primitive, since a named
   type always maps to a pointer.
   */
  lemma ToGoTypeNsTellsPrimitives(opts: Options, xsdType: string, ns: string)
    ensures ToGoTypeNs(opts, xsdType, ns) in Xsd2GoTypes.Values <==> IsPrimitive(xsdType)
  {
    PrimitiveTargetsArePlain();
  }

  /**
   `toGoType`: the mapping without a namespace. No option affects it: a
   primitive maps through the table, any other name to a pointer to its
   capitalised, normalised local name.
   */
  function ToGoType(opts: Options, xsdType: string): (r: string)
    ensures IsPrimitive(xsdType) ==> r == Xsd2GoTypes[Lower(StripNs(xsdType))]
    ensures !IsPrimitive(xsdType) ==> r == "*" + Normalize(MakePublic(StripNs(xsdType)))
  {
    ToGoTypeNs(opts, xsdType, "")
  }

  /** The export option never influences type mapping: `toGoTypeNs` calls the package-level `makePublic`. */
  lemma ToGoTypeNsIgnoresExport(opts: Options, xsdType: string, ns: string)
    ensures ToGoTypeNs(opts, xsdType, ns) == ToGoTypeNs(opts.(exportAllTypes := !opts.exportAllTypes), xsdType, ns)
  {
  }

  /** With namespaces ignored, or no namespace given, the namespace argument changes nothing. */
  lemma ToGoTypeNsWithoutNamespace(opts: Options, xsdType: string, ns: string)
    requires opts.ignoreTypeNs || ns == ""
    ensures ToGoTypeNs(opts, xsdType, ns) == ToGoType(opts, xsdType)
  {
  }

  /**
   A non-primitive whose qualified name starts with a letter or `_` (every XML
   name does) maps to a pointer to a valid, non-keyword Go identifier whose
   first character is not a lower-case letter.
   */
  lemma ToGoTypeNsNamesAreIdentifiers(opts: Options, xsdType: string, ns: string)
    requires !IsPrimitive(xsdType)
    requires var q := QualifiedName(opts, xsdType, ns); |q| > 0 && (IsLetter(q[0]) || q[0] == '_')
    ensures var r := ToGoTypeNs(opts, xsdType, ns);
      |r| >= 2 && r[0] == '*' && !IsLower(r[1]) && r[1..] !in GoKeywords
      && forall i :: 1 <= i < |r| ==> IsIdentChar(r[i])
  {
    KeywordsStartLower();
    var p := MakePublic(QualifiedName(opts, xsdType, ns));
    NormalizeFirst(p);
    var r := ToGoTypeNs(opts, xsdType, ns);
    assert r[1..] == Normalize(p);
  }

  /** A prefixed name strips to its local part. */
  lemma StripNsPrefixed(prefix: string, local: string)
    requires ':' !in prefix && ':' !in local
    ensures StripNs(prefix + ":" + local) == local
  {
    SplitJoin([prefix, local], ':');
    assert Join([prefix, local], ':') == prefix + ":" + local;
  }

  /** An unprefixed name strips to itself. */
  lemma StripNsUnprefixed(local: string)
    requires ':' !in local
    ensures StripNs(local) == local
  {
    SplitNoSep(local, ':');
  }

  /** The mapping of a prefixed primitive: its local name, lower-cased, looked up in the table. */
  lemma PrefixedPrimitive(opts: Options, prefix: string, local: string, ns: string)
    requires ':' !in prefix && ':' !in local
    requires Lower(local) in Xsd2GoTypes
    ensures ToGoTypeNs(opts, prefix + ":" + local, ns) == Xsd2GoTypes[Lower(local)]
  {
    StripNsPrefixed(prefix, local);
  }

  /** Mapping example: `xsd:int` is a 32-bit signed integer. */
  lemma IntExample(opts: Options)
    ensures ToGoType(opts, "xsd:int") == "int32"
  {
    assert Lower("int") == "int";
    assert Xsd2GoTypes["int"] == "int32";
    assert "xsd" + ":" + "int" == "xsd:int";
    PrefixedPrimitive(opts, "xsd", "int", "");
  }

  /** Mapping example: the local name is matched without regard to case. */
  lemma UnsignedIntExample(opts: Options)
    ensures ToGoType(opts, "xs:unsignedInt") == "uint32"
  {
    assert Lower("unsignedInt") == "unsignedint";
    assert Xsd2GoTypes["unsignedint"] == "uint32";
    assert "xs" + ":" + "unsignedInt" == "xs:unsignedInt";
    PrefixedPrimitive(opts, "xs", "unsignedInt", "");
  }

  /** Mapping example: binary content is a byte slice. */
  lemma Base64Example(opts: Options)
    ensures ToGoType(opts, "xsd:base64Binary") == "[]byte"
  {
    assert Lower("base64Binary") == "base64binary";
    assert Xsd2GoTypes["base64binary"] == "[]byte";
    assert "xsd" + ":" + "base64Binary" == "xsd:base64Binary";
    PrefixedPrimitive(opts, "xsd", "base64Binary", "");
  }

  /** Mapping example: an unprefixed `anyType` is the empty interface. */
  lemma AnyTypeExample(opts: Options)
    ensures ToGoType(opts, "anyType") == "interface{}"
  {
    assert Lower("anyType") == "anytype";
    assert Xsd2GoTypes["anytype"] == "interface{}";
    StripNsUnprefixed("anyType");
  }

  /**
   A user type whose qualified name is already a valid identifier maps to a
   pointer to that name, capitalised.
   */
  lemma NamedMapping(opts: Options, xsdType: string, ns: string)
    requires !IsPrimitive(xsdType)
    requires forall i :: 0 <= i < |QualifiedName(opts, xsdType, ns)| ==> IsIdentChar(QualifiedName(opts, xsdType, ns)[i])
    ensures ToGoTypeNs(opts, xsdType, ns) == "*" + MakePublic(QualifiedName(opts, xsdType, ns))
  {
    NormalizeKeepsIdentifiers(MakePublic(QualifiedName(opts, xsdType, ns)));
  }

  /** `ns:Foo` strips to `Foo`. */
  lemma StripFoo()
    ensures StripNs("ns:Foo") == "Foo"
  {
    StripNsPrefixed("ns", "Foo");
    assert "ns" + ":" + "Foo" == "ns:Foo";
  }

  /** The only three-letter local name in the primitive table is `int`. */
  lemma ThreeLetterPrimitive(t: string)
    requires |t| == 3 && t in Xsd2GoTypes
    ensures t == "int"
  {
  }

  /** `ns:Foo` names no primitive. */
  lemma FooIsNamed()
    ensures !IsPrimitive("ns:Foo")
  {
    StripFoo();
    assert Lower("Foo") == "foo";
    if "foo" in Xsd2GoTypes {
      ThreeLetterPrimitive("foo");
    }
  }

  /**
   A prefixed name whose namespace and local part are identifier-only maps
   to a pointer to the capitalised namespace-plus-local name, or to the
   capitalised local name when namespaces are ignored.
   */
  lemma NamespacedMapping(opts: Options, xsdType: string, local: string, ns: string)
    requires !IsPrimitive(xsdType) && StripNs(xsdType) == local
    requires forall i :: 0 <= i < |ns| ==> IsIdentChar(ns[i])
    requires forall i :: 0 <= i < |local| ==> IsIdentChar(local[i])
    ensures !opts.ignoreTypeNs && ns != "" ==> ToGoTypeNs(opts, xsdType, ns) == "*" + MakePublic(ns + local)
    ensures opts.ignoreTypeNs ==> ToGoTypeNs(opts, xsdType, ns) == "*" + MakePublic(local)
  {
    var q := QualifiedName(opts, xsdType, ns);
    assert forall i :: 0 <= i < |q| ==> IsIdentChar(q[i]) by {
      if !opts.ignoreTypeNs && ns != "" {
        assert forall i :: |ns| <= i < |q| ==> q[i] == local[i - |ns|];
      }
    }
    NamedMapping(opts, xsdType, ns);
  }

  /** `ns:Foo` maps to a pointer to its capitalised qualified name. */
  lemma FooMapping(opts: Options)
    ensures ToGoTypeNs(opts, "ns:Foo", "ns") == "*" + MakePublic(QualifiedName(opts, "ns:Foo", "ns"))
  {
    FooIsNamed();
    StripFoo();
    NamespacedMapping(opts, "ns:Foo", "Foo", "ns");
  }

  /** The qualified name of `ns:Foo` under namespace `ns`, capitalised. */
  lemma FooQualifiedName(opts: Options)
    ensures !opts.ignoreTypeNs ==> MakePublic(QualifiedName(opts, "ns:Foo", "ns")) == "NsFoo"
    ensures opts.ignoreTypeNs ==> MakePublic(QualifiedName(opts, "ns:Foo", "ns")) == "Foo"
  {
    StripFoo();
    assert MakePublic("ns" + "Foo") == "NsFoo";
  }

  /** `ns:Foo` under namespace `ns` maps to `*NsFoo`. */
  lemma QualifiedNameExample(opts: Options)
    requires !opts.ignoreTypeNs
    ensures ToGoTypeNs(opts, "ns:Foo", "ns") == "*NsFoo"
  {
    FooMapping(opts);
    FooQualifiedName(opts);
  }

  /** With namespaces ignored, `ns:Foo` maps to `*Foo` whatever the namespace. */
  lemma IgnoredNamespaceExample(opts: Options)
    requires opts.ignoreTypeNs
    ensures ToGoTypeNs(opts, "ns:Foo", "ns") == "*Foo"
  {
    FooMapping(opts);
    FooQualifiedName(opts);
  }

  // ---------------------------------------------------------------------------
  // Comments and string literals

  /** One rendered comment line: `// ` and the source line without its leading white space. */
  function CommentLine(line: string): string {
    "// " + TrimLeftSpace(line)
  }

  /** The rendered lines for a sequence of source lines, one each, in order. */
  function CommentLines(lines: seq<string>): (r: seq<string>)
    ensures |r| == |lines|
    ensures forall i :: 0 <= i < |lines| ==> r[i] == CommentLine(lines[i])
  {
    seq(|lines|, i requires 0 <= i < |lines| => CommentLine(lines[i]))
  }

  /** A rendered line of a single source line holds no newline. */
  lemma CommentLineSingle(line: string)
    requires '\n' !in line
    ensures '\n' !in CommentLine(line)
  {
    TrimLeftSpaceSpec(line);
    var t := TrimLeftSpace(line);
    assert forall c :: c in t ==> c in line;
  }

  /** The rendered comment splits back, on newlines, into its rendered lines. */
  lemma CommentSplitsBack(lines: seq<string>)
    requires forall i :: 0 <= i < |lines| ==> '\n' !in lines[i]
    ensures Split(Join([""] + CommentLines(lines), '\n'), '\n') == [""] + CommentLines(lines)
  {
    var pieces := [""] + CommentLines(lines);
    forall i | 0 <= i < |pieces|
      ensures '\n' !in pieces[i]
    {
      if i > 0 {
        CommentLineSingle(lines[i - 1]);
      }
    }
    SplitJoin(pieces, '\n');
  }

  /** Appending one source line's rendering to the rendered prefix. */
  lemma CommentStep(lines: seq<string>, k: nat)
    requires k < |lines|
    ensures Join([""] + CommentLines(lines[..k + 1]), '\n')
      == Join([""] + CommentLines(lines[..k]), '\n') + "\n// " + TrimLeftSpace(lines[k])
  {
    var prefix := [""] + CommentLines(lines[..k]);
    var t := TrimLeftSpace(lines[k]);
    var line := CommentLine(lines[k]);
    assert CommentLines(lines[..k + 1]) == CommentLines(lines[..k]) + [line] by {
      assert lines[..k + 1][k] == lines[k];
      assert forall i :: 0 <= i < k ==> lines[..k + 1][i] == lines[..k][i];
    }
    assert [""] + CommentLines(lines[..k + 1]) == prefix + [line];
    JoinSnoc(prefix, line, '\n');
    AppendCommentLine(Join(prefix, '\n'), t);
  }

  lemma AppendCommentLine(rendered: string, t: string)
    ensures rendered + "\n// " + t == rendered + ['\n'] + ("// " + t)
  {
  }

  /** Every source line is blank once leading white space is trimmed. */
  predicate Blank(lines: seq<string>) {
    forall i :: 0 <= i < |lines| ==> TrimLeftSpace(lines[i]) == ""
  }

  /** Extending a prefix of the lines by one more line. */
  lemma BlankStep(lines: seq<string>, k: int)
    requires 0 <= k < |lines|
    ensures Blank(lines[..k + 1]) <==> Blank(lines[..k]) && TrimLeftSpace(lines[k]) == ""
  {
    assert forall i :: 0 <= i < k ==> lines[..k + 1][i] == lines[..k][i];
  }

  /**
   `comment`: renders `text` as a Go line comment, one `// ` line per source
   line, each preceded by a newline; the result is empty exactly when every
   line is blank. Splitting a non-empty result on newlines recovers an empty
   first piece followed by the rendered lines.
   */
  method Comment(text: string) returns (r: string)
    ensures r == "" <==> Blank(Split(text, '\n'))
    ensures r != "" ==> Split(r, '\n') == [""] + CommentLines(Split(text, '\n'))
  {
    var lines := Split(text, '\n');
    if |lines| == 1 && lines[0] == "" {
      assert TrimLeftSpace(lines[0]) == "";
      return "";
    }
    var output := "";
    var hasComment := false;
    var k := 0;
    while k < |lines|
      invariant 0 <= k <= |lines|
      invariant output == Join([""] + CommentLines(lines[..k]), '\n')
      invariant k > 0 ==> |output| > 0
      invariant hasComment <==> !Blank(lines[..k])
    {
      var line := TrimLeftSpace(lines[k]);
      if line != "" {
        hasComment := true;
      }
      BlankStep(lines, k);
      assert output + "\n// " + line == Join([""] + CommentLines(lines[..k + 1]), '\n') by {
        CommentStep(lines, k);
      }
      output := output + "\n// " + line;
      k := k + 1;
    }
    assert lines[..k] == lines;
    if hasComment {
      assert Split(output, '\n') == [""] + CommentLines(lines) by {
        SplitPieces(text, '\n');
        CommentSplitsBack(lines);
      }
      r := output;
    } else {
      r := "";
    }
  }

  /** `goString`: escapes every double quote with a backslash, leaving everything else alone. */
  function GoString(s: string): (r: string)
    ensures |r| >= |s|
    ensures |r| > 0 ==> r[0] != '"'
    decreases |s|
  {
    if |s| == 0 then ""
    else (if s[0] == '"' then "\\\"" else [s[0]]) + GoString(s[1..])
  }

  /** Every double quote of the escaped string is preceded by a backslash. */
  lemma {:induction false} GoStringEscapesQuotes(s: string)
    ensures forall i :: 0 <= i < |GoString(s)| && GoString(s)[i] == '"' ==> i > 0 && GoString(s)[i - 1] == '\\'
    decreases |s|
  {
    if |s| > 0 {
      GoStringEscapesQuotes(s[1..]);
      var rest := GoString(s[1..]);
      var head := if s[0] == '"' then "\\\"" else [s[0]];
      assert GoString(s) == head + rest;
      forall i | 0 <= i < |GoString(s)| && GoString(s)[i] == '"'
        ensures i > 0 && GoString(s)[i - 1] == '\\'
      {
        if i >= |head| {
          assert GoString(s)[i] == rest[i - |head|];
          var j := i - |head|;
          assert rest[j] == '"';
          assert j > 0 && rest[j - 1] == '\\';
          assert GoString(s)[i - 1] == rest[j - 1];
        } else {
          assert GoString(s)[i] == head[i];
          assert s[0] == '"' && i == 1;
          assert GoString(s)[0] == head[0];
        }
      }
    }
  }

  /** Reads back an escaped string: each `\"` pair becomes `"`, every other character stays. */
  function Unescape(s: string): string
    decreases |s|
  {
    if |s| == 0 then ""
    else if |s| >= 2 && s[0] == '\\' && s[1] == '"' then "\"" + Unescape(s[2..])
    else [s[0]] + Unescape(s[1..])
  }

  /** Escaping loses nothing: reading the escaped string back gives the original. */
  lemma {:induction false} GoStringRoundTrip(s: string)
    ensures Unescape(GoString(s)) == s
    decreases |s|
  {
    if |s| > 0 {
      GoStringRoundTrip(s[1..]);
      var rest := GoString(s[1..]);
      var g := GoString(s);
      if s[0] == '"' {
        assert g == "\\\"" + rest;
        assert g[0] == '\\' && g[1] == '"' && g[2..] == rest;
        assert Unescape(g) == "\"" + Unescape(rest);
      } else {
        assert g == [s[0]] + rest;
        assert g[1..] == rest;
        assert |rest| > 0 ==> rest[0] != '"';
        assert Unescape(g) == [s[0]] + Unescape(rest);
      }
      assert s == [s[0]] + s[1..];
    }
  }

  // ---------------------------------------------------------------------------
  // dict

  /** A value handed to the template's `dict`: Go's `interface{}`, of which only strings are told apart. */
  datatype TemplateValue = StringValue(text: string) | OtherValue(id: nat)

  const OddArgumentsError: string := "[ERROR] Odd number of arguments, even expected"
  const NonStringKeyError: string := "[ERROR] dict keys must be strings"

  /** Pair `p` of the argument list (positions `2p` and `2p+1`) has a string key. */
  ghost predicate StringKeyAt(values: seq<TemplateValue>, p: int) {
    0 <= p && 2 * p + 1 < |values| && values[2 * p].StringValue?
  }

  /** Pair `p` of the argument list has the key `k`. */
  ghost predicate KeyAt(values: seq<TemplateValue>, p: int, k: string) {
    0 <= p && 2 * p + 1 < |values| && values[2 * p] == StringValue(k)
  }

  /** Pair `p` is the last pair with key `k`. */
  ghost predicate LastKeyAt(values: seq<TemplateValue>, p: int, k: string) {
    KeyAt(values, p, k) && forall q :: p < q ==> !KeyAt(values, q, k)
  }

  /** The map built from the first `p` pairs, each pair overwriting what came before. */
  ghost function PairsMap(values: seq<TemplateValue>, p: nat): map<string, TemplateValue>
    requires 2 * p <= |values| && forall q :: 0 <= q < p ==> StringKeyAt(values, q)
  {
    if p == 0 then map[]
    else
      var q := p - 1;
      assert StringKeyAt(values, q);
      PairsMap(values, q)[values[2 * q].text := values[2 * q + 1]]
  }

  /** The keys of the map from the first `p` pairs are exactly the keys of those pairs. */
  lemma {:induction false} PairsMapKeys(values: seq<TemplateValue>, p: nat)
    requires 2 * p <= |values| && forall q :: 0 <= q < p ==> StringKeyAt(values, q)
    ensures forall k :: k in PairsMap(values, p) <==> exists q :: q < p && KeyAt(values, q, k)
  {
    if p > 0 {
      var q0 := p - 1;
      PairsMapKeys(values, q0);
      assert StringKeyAt(values, q0);
      var key := values[2 * q0].text;
      var prev := PairsMap(values, q0);
      assert PairsMap(values, p) == prev[key := values[2 * q0 + 1]];
      assert KeyAt(values, q0, key);
      forall k | exists q :: q < p && KeyAt(values, q, k)
        ensures k in PairsMap(values, p)
      {
        var q :| q < p && KeyAt(values, q, k);
        if q < q0 {
          assert k in prev;
        } else {
          assert k == key;
        }
      }
    }
  }

  /** Each key of the first `p` pairs maps to the value of the last of those pairs that carries it. */
  lemma {:induction false} PairsMapLast(values: seq<TemplateValue>, p: nat)
    requires 2 * p <= |values| && forall q :: 0 <= q < p ==> StringKeyAt(values, q)
    ensures forall q, k :: KeyAt(values, q, k) && q < p && (forall q' :: q < q' < p ==> !KeyAt(values, q', k)) ==>
      k in PairsMap(values, p) && PairsMap(values, p)[k] == values[2 * q + 1]
  {
    if p > 0 {
      var q0 := p - 1;
      PairsMapLast(values, q0);
      assert StringKeyAt(values, q0);
      var key := values[2 * q0].text;
      var prev := PairsMap(values, q0);
      assert PairsMap(values, p) == prev[key := values[2 * q0 + 1]];
      forall q, k | KeyAt(values, q, k) && q < p && (forall q' :: q < q' < p ==> !KeyAt(values, q', k))
        ensures k in PairsMap(values, p) && PairsMap(values, p)[k] == values[2 * q + 1]
      {
        if q < q0 {
          assert !KeyAt(values, q0, k);
          assert k != key;
          assert k in prev && prev[k] == values[2 * q + 1];
        } else {
          assert k == key;
        }
      }
    }
  }

  /** Once every pair is folded in, the map holds exactly the keys of all pairs, each with its last pair's value. */
  lemma PairsMapComplete(values: seq<TemplateValue>, n: nat)
    requires |values| == 2 * n && forall q :: 0 <= q < n ==> StringKeyAt(values, q)
    ensures forall k :: k in PairsMap(values, n) <==> exists q :: KeyAt(values, q, k)
    ensures forall q, k :: LastKeyAt(values, q, k) ==> k in PairsMap(values, n) && PairsMap(values, n)[k] == values[2 * q + 1]
  {
    assert forall q, k :: KeyAt(values, q, k) ==> q < n;
    PairsMapKeys(values, n);
    PairsMapLast(values, n);
  }

  /**
   `dict`: pairs up an even-length argument list into a map. It fails on an odd
   count, or on a key that is not a string; otherwise the keys are exactly the
   strings in key position and each maps to the value of its last pair.
   */
  method Dict(values: seq<TemplateValue>) returns (r: Result<map<string, TemplateValue>>)
    ensures r.Success? <==> |values| % 2 == 0 && forall p :: 0 <= p < |values| / 2 ==> StringKeyAt(values, p)
    ensures r.Failure? ==> r.error == if |values| % 2 != 0 then OddArgumentsError else NonStringKeyError
    ensures r.Success? ==> forall k :: k in r.value <==> exists p :: KeyAt(values, p, k)
    ensures r.Success? ==> forall p, k :: LastKeyAt(values, p, k) ==> k in r.value && r.value[k] == values[2 * p + 1]
  {
    if |values| % 2 != 0 {
      return Failure(OddArgumentsError);
    }
    var n := |values| / 2;
    assert |values| == 2 * n;
    var result: map<string, TemplateValue> := map[];
    var p := 0;
    while p < n
      invariant 0 <= p <= n
      invariant forall q :: 0 <= q < p ==> StringKeyAt(values, q)
      invariant result == PairsMap(values, p)
    {
      if !values[2 * p].StringValue? {
        assert !StringKeyAt(values, p);
        return Failure(NonStringKeyError);
      }
      result := result[values[2 * p].text := values[2 * p + 1]];
      p := p + 1;
    }
    PairsMapComplete(values, n);
    return Success(result);
  }

  // ---------------------------------------------------------------------------
  // Lookups over the WSDL document

  /** Element `j` of schema `i` has a name equal to `ref` up to case. */
  ghost predicate ElementMatch(schemas: seq<Schema>, ref: string, i: int, j: int) {
    0 <= i < |schemas| && 0 <= j < |schemas[i].elements| && EqualFold(ref, schemas[i].elements[j].name)
  }

  /** Element `j` of schema `i` is the first match, in schema order and then element order. */
  ghost predicate FirstElementMatch(schemas: seq<Schema>, ref: string, i: int, j: int) {
    && ElementMatch(schemas, ref, i, j)
    && (forall i', j' :: 0 <= i' < i ==> !ElementMatch(schemas, ref, i', j'))
    && (forall j' :: 0 <= j' < j ==> !ElementMatch(schemas, ref, i, j'))
  }

  /** The inner loops of `findType`: the first element, over all schemas, whose name matches `ref` up to case. */
  function LookupElement(schemas: seq<Schema>, ref: string): (r: Option<Element>)
    ensures r.None? <==> forall i, j :: !ElementMatch(schemas, ref, i, j)
    ensures forall i, j :: FirstElementMatch(schemas, ref, i, j) ==> r == Some(schemas[i].elements[j])
    decreases |schemas|
  {
    if |schemas| == 0 then None
    else
      match FirstIndex(schemas[0].elements, (e: Element) => EqualFold(ref, e.name))
      case Some(j) =>
        assert ElementMatch(schemas, ref, 0, j);
        Some(schemas[0].elements[j])
      case None =>
        var r := LookupElement(schemas[1..], ref);
        assert forall i, j :: ElementMatch(schemas, ref, i, j) ==> i > 0 && ElementMatch(schemas[1..], ref, i - 1, j);
        FirstElementMatchTail(schemas, ref);
        r
  }

  /** With no match in the first schema, the first match lies in the remaining schemas, one position earlier. */
  lemma FirstElementMatchTail(schemas: seq<Schema>, ref: string)
    requires |schemas| > 0 && forall j :: !ElementMatch(schemas, ref, 0, j)
    ensures forall i, j :: ElementMatch(schemas, ref, i, j) ==> ElementMatch(schemas[1..], ref, i - 1, j)
    ensures forall i, j :: ElementMatch(schemas[1..], ref, i, j) ==> ElementMatch(schemas, ref, i + 1, j)
    ensures forall i, j :: FirstElementMatch(schemas, ref, i, j) ==> FirstElementMatch(schemas[1..], ref, i - 1, j)
  {
    forall i, j | ElementMatch(schemas, ref, i, j)
      ensures ElementMatch(schemas[1..], ref, i - 1, j)
    {
      assert i > 0 && schemas[1..][i - 1] == schemas[i];
    }
    forall i, j | ElementMatch(schemas[1..], ref, i, j)
      ensures ElementMatch(schemas, ref, i + 1, j)
    {
      assert schemas[1..][i] == schemas[i + 1];
    }
    forall i, j | FirstElementMatch(schemas, ref, i, j)
      ensures FirstElementMatch(schemas[1..], ref, i - 1, j)
    {
      var tail, i0 := schemas[1..], i - 1;
      assert ElementMatch(tail, ref, i0, j);
      forall j' | 0 <= j' < j
        ensures !ElementMatch(tail, ref, i0, j')
      {
        assert !ElementMatch(schemas, ref, i, j');
      }
      forall i', j' | 0 <= i' < i - 1
        ensures !ElementMatch(schemas[1..], ref, i', j')
      {
        assert !ElementMatch(schemas, ref, i' + 1, j');
      }
    }
  }

  /** The name `findType` reports for a matched element: its stripped type, or its own name when it has none. */
  function ElementTypeName(el: Element): (r: string)
    ensures el.typ != "" ==> ':' !in r
    ensures el.typ == "" ==> r == el.name
  {
    if el.typ != "" then StripNs(el.typ) else el.name
  }

  /**
   Message `m` settles `findType` for `name`: it has that name, at least one
   part, and its first part is either typed or refers to an element some
   schema declares (names compared up to case, prefixes stripped).
   */
  ghost predicate Answers(m: Message, schemas: seq<Schema>, name: string) {
    && m.name == name
    && |m.parts| > 0
    && (m.parts[0].typ != "" || exists i, j :: ElementMatch(schemas, StripNs(m.parts[0].element), i, j))
  }

  /** Message `k` is the first one that settles `findType` for `name`. */
  ghost predicate FirstAnswer(messages: seq<Message>, schemas: seq<Schema>, name: string, k: int) {
    && 0 <= k < |messages|
    && Answers(messages[k], schemas, name)
    && forall k' :: 0 <= k' < k ==> !Answers(messages[k'], schemas, name)
  }

  /** What one message contributes to `findType`: an answer when it settles the question, `None` when the scan moves on. */
  function MessageAnswer(m: Message, schemas: seq<Schema>, name: string): (r: Option<string>)
    ensures r.Some? <==> Answers(m, schemas, name)
    ensures r.Some? && m.parts[0].typ != "" ==> r.value == StripNs(m.parts[0].typ)
    ensures forall i, j :: r.Some? && m.parts[0].typ == "" && FirstElementMatch(schemas, StripNs(m.parts[0].element), i, j) ==>
      r.value == ElementTypeName(schemas[i].elements[j])
  {
    if m.name != name || |m.parts| == 0 then None
    else if m.parts[0].typ != "" then Some(StripNs(m.parts[0].typ))
    else
      match LookupElement(schemas, StripNs(m.parts[0].element))
      case Some(el) => Some(ElementTypeName(el))
      case None => None
  }

  /**
   The message scan of `findType`, for an already stripped message name.
   Messages with no parts, and element references no schema declares, are
   skipped; the first message that settles the question decides.
   */
  function FindTypeIn(messages: seq<Message>, schemas: seq<Schema>, name: string): (r: string)
    ensures (forall k :: 0 <= k < |messages| ==> !Answers(messages[k], schemas, name)) ==> r == ""
    ensures forall k :: FirstAnswer(messages, schemas, name, k) && messages[k].parts[0].typ != "" ==>
      r == StripNs(messages[k].parts[0].typ)
    ensures forall k, i, j ::
      && FirstAnswer(messages, schemas, name, k)
      && messages[k].parts[0].typ == ""
      && FirstElementMatch(schemas, StripNs(messages[k].parts[0].element), i, j)
      ==> r == ElementTypeName(schemas[i].elements[j])
    decreases |messages|
  {
    if |messages| == 0 then ""
    else
      match MessageAnswer(messages[0], schemas, name)
      case Some(answer) =>
        assert forall k :: FirstAnswer(messages, schemas, name, k) ==> k == 0;
        answer
      case None =>
        FirstAnswerTail(messages, schemas, name);
        FindTypeIn(messages[1..], schemas, name)
  }

  /** When the first message does not settle `findType`, the rest of the messages decide it. */
  lemma FirstAnswerTail(messages: seq<Message>, schemas: seq<Schema>, name: string)
    requires |messages| > 0 && !Answers(messages[0], schemas, name)
    ensures (forall k :: 0 <= k < |messages| ==> !Answers(messages[k], schemas, name)) <==>
      (forall k :: 0 <= k < |messages[1..]| ==> !Answers(messages[1..][k], schemas, name))
    ensures forall k :: FirstAnswer(messages, schemas, name, k) ==> FirstAnswer(messages[1..], schemas, name, k - 1)
  {
    var tail := messages[1..];
    forall k | 0 <= k < |tail|
      ensures tail[k] == messages[k + 1]
    {
    }
    forall k | FirstAnswer(messages, schemas, name, k)
      ensures FirstAnswer(tail, schemas, name, k - 1)
    {
      var k0 := k - 1;
      assert tail[k0] == messages[k];
      forall k' | 0 <= k' < k0
        ensures !Answers(tail[k'], schemas, name)
      {
        assert tail[k'] == messages[k' + 1];
      }
    }
  }

  /** `findType`: the Go type name of a message's payload, or "" when no message settles it. */
  function FindType(defs: Definitions, message: string): (r: string)
    ensures (forall k :: 0 <= k < |defs.messages| ==> !Answers(defs.messages[k], defs.schemas, StripNs(message))) ==> r == ""
    ensures forall k :: FirstAnswer(defs.messages, defs.schemas, StripNs(message), k) && defs.messages[k].parts[0].typ != "" ==>
      r == StripNs(defs.messages[k].parts[0].typ)
    ensures forall k, i, j ::
      && FirstAnswer(defs.messages, defs.schemas, StripNs(message), k)
      && defs.messages[k].parts[0].typ == ""
      && FirstElementMatch(defs.schemas, StripNs(defs.messages[k].parts[0].element), i, j)
      ==> r == ElementTypeName(defs.schemas[i].elements[j])
  {
    FindTypeIn(defs.messages, defs.schemas, StripNs(message))
  }

  /** Operation `j` of binding `i` answers `findSOAPAction`: the binding implements `portType` and the names agree. */
  ghost predicate ActionMatch(bindings: seq<Binding>, operation: string, portType: string, i: int, j: int) {
    && 0 <= i < |bindings|
    && StripNs(bindings[i].typ) == portType
    && 0 <= j < |bindings[i].operations|
    && bindings[i].operations[j].name == operation
  }

  /** The first such operation, in binding order and then operation order. */
  ghost predicate FirstActionMatch(bindings: seq<Binding>, operation: string, portType: string, i: int, j: int) {
    && ActionMatch(bindings, operation, portType, i, j)
    && (forall i', j' :: 0 <= i' < i ==> !ActionMatch(bindings, operation, portType, i', j'))
    && (forall j' :: 0 <= j' < j ==> !ActionMatch(bindings, operation, portType, i, j'))
  }

  /** `findSOAPAction` over a list of bindings: the action of the first matching operation, or "". */
  function FindSoapActionIn(bindings: seq<Binding>, operation: string, portType: string): (r: string)
    ensures (forall i, j :: !ActionMatch(bindings, operation, portType, i, j)) ==> r == ""
    ensures forall i, j :: FirstActionMatch(bindings, operation, portType, i, j) ==>
      r == bindings[i].operations[j].soapAction
    decreases |bindings|
  {
    if |bindings| == 0 then ""
    else
      var b := bindings[0];
      var hit := if StripNs(b.typ) == portType
        then FirstIndex(b.operations, (o: BindingOperation) => o.name == operation)
        else None;
      match hit
      case Some(j) =>
        assert ActionMatch(bindings, operation, portType, 0, j);
        b.operations[j].soapAction
      case None =>
        assert forall j :: !ActionMatch(bindings, operation, portType, 0, j);
        ActionMatchTail(bindings, operation, portType);
        FindSoapActionIn(bindings[1..], operation, portType)
  }

  /** With no match in the first binding, the first match lies in the remaining bindings, one position earlier. */
  lemma ActionMatchTail(bindings: seq<Binding>, operation: string, portType: string)
    requires |bindings| > 0 && forall j :: !ActionMatch(bindings, operation, portType, 0, j)
    ensures forall i, j :: ActionMatch(bindings[1..], operation, portType, i, j) ==>
      ActionMatch(bindings, operation, portType, i + 1, j)
    ensures forall i, j :: FirstActionMatch(bindings, operation, portType, i, j) ==>
      FirstActionMatch(bindings[1..], operation, portType, i - 1, j)
  {
    forall i, j | ActionMatch(bindings[1..], operation, portType, i, j)
      ensures ActionMatch(bindings, operation, portType, i + 1, j)
    {
      assert bindings[1..][i] == bindings[i + 1];
    }
    forall i, j | FirstActionMatch(bindings, operation, portType, i, j)
      ensures FirstActionMatch(bindings[1..], operation, portType, i - 1, j)
    {
      var tail, i0 := bindings[1..], i - 1;
      assert tail[i0] == bindings[i];
      assert ActionMatch(tail, operation, portType, i0, j);
      forall i', j' | 0 <= i' < i0
        ensures !ActionMatch(tail, operation, portType, i', j')
      {
        assert tail[i'] == bindings[i' + 1];
        assert !ActionMatch(bindings, operation, portType, i' + 1, j');
      }
      forall j' | 0 <= j' < j
        ensures !ActionMatch(tail, operation, portType, i0, j')
      {
        assert !ActionMatch(bindings, operation, portType, i, j');
      }
    }
  }

  /** `findSOAPAction`: the SOAP action of `operation` in a binding of `portType`, or "". */
  function FindSoapAction(defs: Definitions, operation: string, portType: string): (r: string)
    ensures (forall i, j :: !ActionMatch(defs.bindings, operation, portType, i, j)) ==> r == ""
    ensures forall i, j :: FirstActionMatch(defs.bindings, operation, portType, i, j) ==>
      r == defs.bindings[i].operations[j].soapAction
  {
    FindSoapActionIn(defs.bindings, operation, portType)
  }

  /** Port `j` of service `i` is named `name`. */
  ghost predicate PortMatch(services: seq<Service>, name: string, i: int, j: int) {
    0 <= i < |services| && 0 <= j < |services[i].ports| && services[i].ports[j].name == name
  }

  /** The first such port, in service order and then port order. */
  ghost predicate FirstPortMatch(services: seq<Service>, name: string, i: int, j: int) {
    && PortMatch(services, name, i, j)
    && (forall i', j' :: 0 <= i' < i ==> !PortMatch(services, name, i', j'))
    && (forall j' :: 0 <= j' < j ==> !PortMatch(services, name, i, j'))
  }

  /** `findServiceAddress` over a list of services: the address of the first port so named, or "". */
  function FindServiceAddressIn(services: seq<Service>, name: string): (r: string)
    ensures (forall i, j :: !PortMatch(services, name, i, j)) ==> r == ""
    ensures forall i, j :: FirstPortMatch(services, name, i, j) ==> r == services[i].ports[j].address
    decreases |services|
  {
    if |services| == 0 then ""
    else
      match FirstIndex(services[0].ports, (p: Port) => p.name == name)
      case Some(j) =>
        assert PortMatch(services, name, 0, j);
        services[0].ports[j].address
      case None =>
        PortMatchTail(services, name);
        FindServiceAddressIn(services[1..], name)
  }

  /** With no match in the first service, the first match lies in the remaining services, one position earlier. */
  lemma PortMatchTail(services: seq<Service>, name: string)
    requires |services| > 0 && forall j :: !PortMatch(services, name, 0, j)
    ensures forall i, j :: PortMatch(services[1..], name, i, j) ==> PortMatch(services, name, i + 1, j)
    ensures forall i, j :: FirstPortMatch(services, name, i, j) ==> FirstPortMatch(services[1..], name, i - 1, j)
  {
    forall i, j | PortMatch(services[1..], name, i, j)
      ensures PortMatch(services, name, i + 1, j)
    {
      assert services[1..][i] == services[i + 1];
    }
    forall i, j | FirstPortMatch(services, name, i, j)
      ensures FirstPortMatch(services[1..], name, i - 1, j)
    {
      var tail, i0 := services[1..], i - 1;
      assert tail[i0] == services[i];
      assert PortMatch(tail, name, i0, j);
      forall i', j' | 0 <= i' < i0
        ensures !PortMatch(tail, name, i', j')
      {
        assert tail[i'] == services[i' + 1];
        assert !PortMatch(services, name, i' + 1, j');
      }
      forall j' | 0 <= j' < j
        ensures !PortMatch(tail, name, i0, j')
      {
        assert !PortMatch(services, name, i, j');
      }
    }
  }

  /** `findServiceAddress`: the SOAP address of the first port named `name`, or "". */
  function FindServiceAddress(defs: Definitions, name: string): (r: string)
    ensures (forall i, j :: !PortMatch(defs.services, name, i, j)) ==> r == ""
    ensures forall i, j :: FirstPortMatch(defs.services, name, i, j) ==> r == defs.services[i].ports[j].address
  {
    FindServiceAddressIn(defs.services, name)
  }
}

=== FILE: wrappers.dfy ===
/** Result types shared by the whole model. */
module Wrappers {

  /** An optional value: the model's stand-in for a Go nil pointer or a missing map entry. */
  datatype Option<+T> = None | Some(value: T)

  /** A value or an error message, the model's stand-in for Go's `(T, error)` pair. */
  datatype Result<+R> = Success(value: R) | Failure(error: string)
}

=== FILE: wsdl.dfy ===
/**
 The structural model the XML decoder produces: a WSDL document and the XML
 Schema documents it embeds or references. Only the fields the generator's
 core reads are kept; every collection keeps document order.
 */
module Wsdl {

  /** `<xs:import namespace=… schemaLocation=…>`; an empty location means "namespace only". */
  datatype Import = Import(namespace: string, schemaLocation: string)

  /** `<xs:include schemaLocation=…>`. */
  datatype Include = Include(schemaLocation: string)

  /** `<xs:element name=… type=…>`; `typ` is empty for an anonymous (inline) type. */
  datatype Element = Element(name: string, typ: string)

  /** `<xs:simpleType name=…>` with its restriction base. */
  datatype SimpleType = SimpleType(name: string, base: string)

  /** `<xs:complexType name=…>` with the elements of its content model. */
  datatype ComplexType = ComplexType(name: string, fields: seq<Element>)

  /** One `<xs:schema>` document. */
  datatype Schema = Schema(
    targetNamespace: string,
    imports: seq<Import>,
    includes: seq<Include>,
    simpleTypes: seq<SimpleType>,
    complexTypes: seq<ComplexType>,
    elements: seq<Element>)

  /** `<wsdl:part name=… type=… element=…>`: typed inline or by an element reference. */
  datatype Part = Part(name: string, typ: string, element: string)

  datatype Message = Message(name: string, parts: seq<Part>)

  datatype Operation = Operation(name: string, input: string, output: string)

  datatype PortType = PortType(name: string, operations: seq<Operation>)

  /** A binding operation with the `soapAction` of its `<soap:operation>`. */
  datatype BindingOperation = BindingOperation(name: string, soapAction: string)

  /** `<wsdl:binding name=… type=…>`; `typ` names the port type it implements, usually prefixed. */
  datatype Binding = Binding(name: string, typ: string, operations: seq<BindingOperation>)

  /** `<wsdl:port name=… binding=…>` with the `location` of its `<soap:address>`. */
  datatype Port = Port(name: string, binding: string, address: string)

  datatype Service = Service(name: string, ports: seq<Port>)

  /** A whole WSDL document; `schemas` is the content of `<wsdl:types>`. */
  datatype Definitions = Definitions(
    targetNamespace: string,
    messages: seq<Message>,
    portTypes: seq<PortType>,
    bindings: seq<Binding>,
    services: seq<Service>,
    schemas: seq<Schema>)
}

=== FILE: wsdl_refinement.dfy ===
/**
 The type deduplicator that runs once all external schemas are resolved.
 Walking the schemas in order, and within each schema its simple types
 before its complex types, it keeps only the first type declared under each
 namespace-qualified name. One set of seen names spans all schemas and both
 kinds of type.
 */
module Refinement {

  import opened Seqs
  import opened Wsdl

  /** The dedup key: target namespace and local name joined by a colon. */
  function TypeKey(ns: string, name: string): string {
    ns + ":" + name
  }

  function SimpleKeyOf(ns: string): SimpleType -> string {
    (t: SimpleType) => TypeKey(ns, t.name)
  }

  function ComplexKeyOf(ns: string): ComplexType -> string {
    (t: ComplexType) => TypeKey(ns, t.name)
  }

  /** The keys of a list, in order. */
  function Keys<T>(xs: seq<T>, key: T -> string): (ks: seq<string>) {
    seq(|xs|, i requires 0 <= i < |xs| => key(xs[i]))
  }

  /** The keys of a list, as a set. */
  function KeySet(ks: seq<string>): set<string> {
    set k | k in ks
  }

  /** The keys of one schema, in the order the pass visits them. */
  function SchemaKeys(s: Schema): seq<string> {
    Keys(s.simpleTypes, SimpleKeyOf(s.targetNamespace)) + Keys(s.complexTypes, ComplexKeyOf(s.targetNamespace))
  }

  /** The keys of all schemas, in visiting order. */
  function AllKeys(schemas: seq<Schema>): seq<string>
    decreases |schemas|
  {
    if |schemas| == 0 then [] else SchemaKeys(schemas[0]) + AllKeys(schemas[1..])
  }

  /** `t` is `s` with at most its simple and complex types changed. */
  ghost predicate SameButTypes(t: Schema, s: Schema) {
    t == s.(simpleTypes := t.simpleTypes, complexTypes := t.complexTypes)
  }

  /**
   One inner loop of `removeTypeDuplicates`: keeps each element whose key is
   not yet seen, marking it seen. Returns the kept elements and the grown set.
   */
  function FirstOccurrences<T>(xs: seq<T>, key: T -> string, seen: set<string>): (r: (seq<T>, set<string>))
    ensures Subseq(r.0, xs)
    ensures r.1 == seen + KeySet(Keys(xs, key))
    decreases |xs|
  {
    if |xs| == 0 then ([], seen)
    else
      var tail := FirstOccurrences(xs[1..], key, seen + {key(xs[0])});
      assert Keys(xs, key) == [key(xs[0])] + Keys(xs[1..], key);
      if key(xs[0]) in seen then
        var r := FirstOccurrences(xs[1..], key, seen);
        assert Subseq(r.0, xs[1..]);
        r
      else
        assert xs[0] == ([xs[0]] + tail.0)[0] && tail.0 == ([xs[0]] + tail.0)[1..];
        ([xs[0]] + tail.0, tail.1)
  }

  /**
   What the filter keeps: elements with pairwise different keys, none of
   them seen before, and between them every key of the input that was not
   seen before.
   */
  lemma {:induction false} FirstOccurrencesSpec<T>(xs: seq<T>, key: T -> string, seen: set<string>)
    ensures Distinct(Keys(FirstOccurrences(xs, key, seen).0, key))
    ensures forall i :: 0 <= i < |FirstOccurrences(xs, key, seen).0| ==> key(FirstOccurrences(xs, key, seen).0[i]) !in seen
    ensures forall k :: k in Keys(FirstOccurrences(xs, key, seen).0, key) <==> k in Keys(xs, key) && k !in seen
    decreases |xs|
  {
    if |xs| > 0 {
      assert Keys(xs, key) == [key(xs[0])] + Keys(xs[1..], key);
      if key(xs[0]) in seen {
        FirstOccurrencesSpec(xs[1..], key, seen);
      } else {
        var seen' := seen + {key(xs[0])};
        FirstOccurrencesSpec(xs[1..], key, seen');
        var rest := FirstOccurrences(xs[1..], key, seen').0;
        assert FirstOccurrences(xs, key, seen).0 == [xs[0]] + rest;
        assert Keys([xs[0]] + rest, key) == [key(xs[0])] + Keys(rest, key);
        DistinctConcat([key(xs[0])], Keys(rest, key));
      }
    }
  }

  /** Input whose keys are already pairwise different and unseen passes through unchanged. */
  lemma {:induction false} FirstOccurrencesIdentity<T>(xs: seq<T>, key: T -> string, seen: set<string>)
    requires Distinct(Keys(xs, key))
    requires forall i :: 0 <= i < |xs| ==> key(xs[i]) !in seen
    ensures FirstOccurrences(xs, key, seen).0 == xs
    decreases |xs|
  {
    if |xs| > 0 {
      assert Keys(xs, key) == [key(xs[0])] + Keys(xs[1..], key);
      DistinctConcat([key(xs[0])], Keys(xs[1..], key));
      forall i | 0 <= i < |xs[1..]|
        ensures key(xs[1..][i]) !in seen + {key(xs[0])}
      {
        assert key(xs[1..][i]) == Keys(xs, key)[i + 1];
        assert Keys(xs, key)[0] != Keys(xs, key)[i + 1];
      }
      FirstOccurrencesIdentity(xs[1..], key, seen + {key(xs[0])});
      assert xs == [xs[0]] + xs[1..];
    }
  }

  /**
   The reference reading of the filter, position by position: from index `m`
   on, the elements whose key is neither seen nor carried by an element
   earlier in the list. So the first element under each key wins.
   */
  function FirstKept<T>(xs: seq<T>, key: T -> string, seen: set<string>, m: nat): seq<T>
    decreases |xs| - m
  {
    if m >= |xs| then []
    else
      (if key(xs[m]) !in seen + KeySet(Keys(xs[..m], key)) then [xs[m]] else [])
      + FirstKept(xs, key, seen, m + 1)
  }

  /** The keys of a prefix one element longer. */
  lemma PrefixKeySet<T>(xs: seq<T>, key: T -> string, m: int)
    requires 0 <= m < |xs|
    ensures KeySet(Keys(xs[..m + 1], key)) == KeySet(Keys(xs[..m], key)) + {key(xs[m])}
  {
    assert Keys(xs[..m + 1], key) == Keys(xs[..m], key) + [key(xs[m])];
  }

  /**
   The filter run on the suffix from `m`, with the keys before `m` marked
   seen, keeps what the positional reading keeps from `m` on.
   */
  lemma {:induction false} FirstOccurrencesFrom<T>(xs: seq<T>, key: T -> string, seen: set<string>, m: nat)
    requires m <= |xs|
    ensures FirstOccurrences(xs[m..], key, seen + KeySet(Keys(xs[..m], key))).0 == FirstKept(xs, key, seen, m)
    decreases |xs| - m
  {
    if m < |xs| {
      var here := seen + KeySet(Keys(xs[..m], key));
      var next := seen + KeySet(Keys(xs[..m + 1], key));
      assert next == here + {key(xs[m])} by {
        PrefixKeySet(xs, key, m);
      }
      FirstOccurrencesFrom(xs, key, seen, m + 1);
      var rest := FirstOccurrences(xs[m + 1..], key, next).0;
      assert xs[m..][0] == xs[m] && xs[m..][1..] == xs[m + 1..];
      if key(xs[m]) in here {
        assert next == here;
        assert FirstOccurrences(xs[m..], key, here).0 == rest;
      } else {
        assert FirstOccurrences(xs[m..], key, here).0 == [xs[m]] + rest;
      }
    }
  }

  /** `FirstOccurrences` keeps exactly the first element under each unseen key, in order. */
  lemma FirstOccurrencesKeepsFirst<T>(xs: seq<T>, key: T -> string, seen: set<string>)
    ensures FirstOccurrences(xs, key, seen).0 == FirstKept(xs, key, seen, 0)
  {
    FirstOccurrencesFrom(xs, key, seen, 0);
    assert xs[0..] == xs && xs[..0] == [];
    assert seen + KeySet(Keys(xs[..0], key)) == seen;
  }

  /** Filters one schema's simple types, then its complex types, against the running set of seen keys. */
  function DedupSchema(s: Schema, seen: set<string>): (r: (Schema, set<string>))
    ensures SameButTypes(r.0, s)
    ensures Subseq(r.0.simpleTypes, s.simpleTypes) && Subseq(r.0.complexTypes, s.complexTypes)
    ensures r.1 == seen + KeySet(SchemaKeys(s))
  {
    var simple := FirstOccurrences(s.simpleTypes, SimpleKeyOf(s.targetNamespace), seen);
    var complex := FirstOccurrences(s.complexTypes, ComplexKeyOf(s.targetNamespace), simple.1);
    (s.(simpleTypes := simple.0, complexTypes := complex.0), complex.1)
  }

  /** The outer loop of `removeTypeDuplicates`, with the seen keys threaded from schema to schema. */
  function Dedup(schemas: seq<Schema>, seen: set<string>): (r: (seq<Schema>, set<string>))
    ensures |r.0| == |schemas|
    ensures forall i :: 0 <= i < |schemas| ==> SameButTypes(r.0[i], schemas[i])
    ensures forall i :: 0 <= i < |schemas| ==>
      Subseq(r.0[i].simpleTypes, schemas[i].simpleTypes) && Subseq(r.0[i].complexTypes, schemas[i].complexTypes)
    ensures r.1 == seen + KeySet(AllKeys(schemas))
    decreases |schemas|
  {
    if |schemas| == 0 then ([], seen)
    else
      var head := DedupSchema(schemas[0], seen);
      var tail := Dedup(schemas[1..], head.1);
      ([head.0] + tail.0, tail.1)
  }

  /**
   `t` holds exactly the types of `s` that come first under their key, when
   `seen` are the keys of every schema before `s`: a simple type survives
   when no earlier simple type of `s` and no earlier schema carries its key,
   and a complex type when, besides, no simple type of `s` carries it.
   */
  ghost predicate FirstTypes(t: Schema, s: Schema, seen: set<string>) {
    var simpleKey, complexKey := SimpleKeyOf(s.targetNamespace), ComplexKeyOf(s.targetNamespace);
    && t.simpleTypes == FirstKept(s.simpleTypes, simpleKey, seen, 0)
    && t.complexTypes == FirstKept(s.complexTypes, complexKey, seen + KeySet(Keys(s.simpleTypes, simpleKey)), 0)
  }

  /** Every schema of `out` holds exactly the first-occurring types of the same schema of `schemas`. */
  ghost predicate KeepsFirst(out: seq<Schema>, schemas: seq<Schema>)
    requires |out| == |schemas|
  {
    forall i :: 0 <= i < |schemas| ==> FirstTypes(out[i], schemas[i], KeySet(AllKeys(schemas[..i])))
  }

  /** `removeTypeDuplicates` over the schema list of `<wsdl:types>`. */
  function RemoveTypeDuplicates(schemas: seq<Schema>): (r: seq<Schema>)
    ensures |r| == |schemas|
    ensures forall i :: 0 <= i < |schemas| ==> SameButTypes(r[i], schemas[i])
    ensures forall i :: 0 <= i < |schemas| ==>
      Subseq(r[i].simpleTypes, schemas[i].simpleTypes) && Subseq(r[i].complexTypes, schemas[i].complexTypes)
    ensures Distinct(AllKeys(r))
    ensures forall k :: k in AllKeys(r) <==> k in AllKeys(schemas)
    ensures KeepsFirst(r, schemas)
  {
    DedupDistinct(schemas, {});
    DedupKeys(schemas, {});
    DedupKeepsFirst(schemas);
    Dedup(schemas, {}).0
  }

  /** `refine`: deduplicates the types and leaves the rest of the document alone. */
  function Refine(defs: Definitions): (r: Definitions)
    ensures r == defs.(schemas := r.schemas)
    ensures Distinct(AllKeys(r.schemas))
    ensures forall k :: k in AllKeys(r.schemas) <==> k in AllKeys(defs.schemas)
    ensures |r.schemas| == |defs.schemas| && KeepsFirst(r.schemas, defs.schemas)
  {
    defs.(schemas := RemoveTypeDuplicates(defs.schemas))
  }

  // ---------------------------------------------------------------------------
  // Properties

  lemma DedupSchemaSpec(s: Schema, seen: set<string>)
    ensures Distinct(SchemaKeys(DedupSchema(s, seen).0))
    ensures forall k :: k in SchemaKeys(DedupSchema(s, seen).0) <==> k in SchemaKeys(s) && k !in seen
  {
    var ns := s.targetNamespace;
    var simple := FirstOccurrences(s.simpleTypes, SimpleKeyOf(ns), seen);
    var complex := FirstOccurrences(s.complexTypes, ComplexKeyOf(ns), simple.1);
    FirstOccurrencesSpec(s.simpleTypes, SimpleKeyOf(ns), seen);
    FirstOccurrencesSpec(s.complexTypes, ComplexKeyOf(ns), simple.1);
    var a, b := Keys(simple.0, SimpleKeyOf(ns)), Keys(complex.0, ComplexKeyOf(ns));
    assert SchemaKeys(DedupSchema(s, seen).0) == a + b;
    forall i, j | 0 <= i < |a| && 0 <= j < |b|
      ensures a[i] != b[j]
    {
      assert a[i] in Keys(s.simpleTypes, SimpleKeyOf(ns));
      assert b[j] !in simple.1;
    }
    DistinctConcat(a, b);
  }

  /** After the pass no two surviving types share a key, and none of them was seen before. */
  lemma {:induction false} DedupDistinct(schemas: seq<Schema>, seen: set<string>)
    ensures Distinct(AllKeys(Dedup(schemas, seen).0))
    ensures forall k :: k in AllKeys(Dedup(schemas, seen).0) ==> k !in seen
    decreases |schemas|
  {
    if |schemas| > 0 {
      var head := DedupSchema(schemas[0], seen);
      var out := Dedup(schemas, seen).0;
      DedupSchemaSpec(schemas[0], seen);
      DedupDistinct(schemas[1..], head.1);
      assert out[0] == head.0 && out[1..] == Dedup(schemas[1..], head.1).0;
      var a, b := SchemaKeys(head.0), AllKeys(out[1..]);
      assert AllKeys(out) == a + b;
      forall i, j | 0 <= i < |a| && 0 <= j < |b|
        ensures a[i] != b[j]
      {
        assert a[i] in SchemaKeys(schemas[0]);
        assert b[j] !in head.1;
      }
      DistinctConcat(a, b);
    }
  }

  /** Every key present before the pass is still present after it, and no other key is. */
  lemma {:induction false} DedupKeys(schemas: seq<Schema>, seen: set<string>)
    ensures forall k :: k in AllKeys(Dedup(schemas, seen).0) <==> k in AllKeys(schemas) && k !in seen
    decreases |schemas|
  {
    if |schemas| > 0 {
      var head := DedupSchema(schemas[0], seen);
      var out := Dedup(schemas, seen).0;
      DedupSchemaSpec(schemas[0], seen);
      DedupKeys(schemas[1..], head.1);
      assert out[0] == head.0 && out[1..] == Dedup(schemas[1..], head.1).0;
      assert AllKeys(out) == SchemaKeys(head.0) + AllKeys(out[1..]);
    }
  }

  /** Schemas whose keys are already pairwise different and unseen come through unchanged. */
  lemma {:induction false} DedupIdentity(schemas: seq<Schema>, seen: set<string>)
    requires Distinct(AllKeys(schemas))
    requires forall k :: k in AllKeys(schemas) ==> k !in seen
    ensures Dedup(schemas, seen).0 == schemas
    decreases |schemas|
  {
    if |schemas| > 0 {
      var s := schemas[0];
      DistinctConcat(SchemaKeys(s), AllKeys(schemas[1..]));
      assert DedupSchema(s, seen).0 == s by {
        var ns := s.targetNamespace;
        var a, b := Keys(s.simpleTypes, SimpleKeyOf(ns)), Keys(s.complexTypes, ComplexKeyOf(ns));
        DistinctConcat(a, b);
        forall i | 0 <= i < |s.simpleTypes|
          ensures SimpleKeyOf(ns)(s.simpleTypes[i]) !in seen
        {
          assert a[i] in AllKeys(schemas);
        }
        FirstOccurrencesIdentity(s.simpleTypes, SimpleKeyOf(ns), seen);
        var seen1 := seen + KeySet(a);
        forall i | 0 <= i < |s.complexTypes|
          ensures ComplexKeyOf(ns)(s.complexTypes[i]) !in seen1
        {
          assert b[i] in AllKeys(schemas);
          assert forall j :: 0 <= j < |a| ==> a[j] != b[i];
        }
        FirstOccurrencesIdentity(s.complexTypes, ComplexKeyOf(ns), seen1);
      }
      var seen2 := seen + KeySet(SchemaKeys(s));
      forall k | k in AllKeys(schemas[1..])
        ensures k !in seen2
      {
        assert k in AllKeys(schemas);
      }
      DedupIdentity(schemas[1..], seen2);
      assert schemas == [s] + schemas[1..];
    }
  }

  /** Running the pass twice gives the same result as running it once. */
  lemma RemoveTypeDuplicatesIdempotent(schemas: seq<Schema>)
    ensures RemoveTypeDuplicates(RemoveTypeDuplicates(schemas)) == RemoveTypeDuplicates(schemas)
  {
    var once := RemoveTypeDuplicates(schemas);
    DedupIdentity(once, {});
  }

  /** A document whose types are already unique is left exactly as it was. */
  lemma RefineIdentity(defs: Definitions)
    requires Distinct(AllKeys(defs.schemas))
    ensures Refine(defs) == defs
  {
    DedupIdentity(defs.schemas, {});
  }

  /** Every key of a schema is among the keys of any schema list containing it. */
  lemma {:induction false} AllKeysContains(schemas: seq<Schema>, i: int)
    requires 0 <= i < |schemas|
    ensures forall k :: k in SchemaKeys(schemas[i]) ==> k in AllKeys(schemas)
    decreases |schemas|
  {
    if i > 0 {
      AllKeysContains(schemas[1..], i - 1);
      assert schemas[1..][i - 1] == schemas[i];
    }
  }

  /**
   A schema-by-schema reading of the pass, with no set threaded through:
   schema `i` is filtered against the keys of every schema before it. Its
   simple types then shadow its own complex types, as `DedupSchema` shows.
   */
  lemma {:induction false} DedupAt(schemas: seq<Schema>, seen: set<string>, i: int)
    requires 0 <= i < |schemas|
    ensures Dedup(schemas, seen).0[i] == DedupSchema(schemas[i], seen + KeySet(AllKeys(schemas[..i]))).0
    decreases |schemas|
  {
    if i == 0 {
      assert schemas[..0] == [];
      assert seen + KeySet(AllKeys(schemas[..0])) == seen;
    } else {
      var head := DedupSchema(schemas[0], seen);
      var tail := schemas[1..];
      var lhs, rhs := head.1 + KeySet(AllKeys(tail[..i - 1])), seen + KeySet(AllKeys(schemas[..i]));
      assert lhs == rhs by {
        PrefixKeys(schemas, i);
      }
      DedupAt(tail, head.1, i - 1);
      assert tail[i - 1] == schemas[i];
      assert Dedup(schemas, seen).0[i] == Dedup(tail, head.1).0[i - 1];
    }
  }

  /** Within one schema, the first type under each key survives, simple types taking precedence. */
  lemma DedupSchemaKeepsFirst(s: Schema, seen: set<string>)
    ensures FirstTypes(DedupSchema(s, seen).0, s, seen)
  {
    var ns := s.targetNamespace;
    var simple := FirstOccurrences(s.simpleTypes, SimpleKeyOf(ns), seen);
    FirstOccurrencesKeepsFirst(s.simpleTypes, SimpleKeyOf(ns), seen);
    FirstOccurrencesKeepsFirst(s.complexTypes, ComplexKeyOf(ns), simple.1);
  }

  /** Over the whole pass, each type survives exactly when its key occurs nowhere earlier in visiting order. */
  lemma DedupKeepsFirst(schemas: seq<Schema>)
    ensures KeepsFirst(Dedup(schemas, {}).0, schemas)
  {
    forall i | 0 <= i < |schemas|
      ensures FirstTypes(Dedup(schemas, {}).0[i], schemas[i], KeySet(AllKeys(schemas[..i])))
    {
      var seen := KeySet(AllKeys(schemas[..i]));
      DedupAt(schemas, {}, i);
      assert {} + seen == seen;
      DedupSchemaKeepsFirst(schemas[i], seen);
    }
  }

  /** The keys of the first `i` schemas: those of the first schema, then those of the next `i - 1`. */
  lemma PrefixKeys(schemas: seq<Schema>, i: int)
    requires 0 < i <= |schemas|
    ensures KeySet(AllKeys(schemas[..i])) ==
      KeySet(SchemaKeys(schemas[0])) + KeySet(AllKeys(schemas[1..][..i - 1]))
  {
    assert schemas[..i][0] == schemas[0] && schemas[..i][1..] == schemas[1..][..i - 1];
    var before, later := SchemaKeys(schemas[0]), AllKeys(schemas[1..][..i - 1]);
    assert AllKeys(schemas[..i]) == before + later;
  }

  /**
   A complex type whose key is also the key of a simple type in the same or
   an earlier schema never survives: simple types are handled first.
   */
  lemma SimpleShadowsComplex(schemas: seq<Schema>, i: int, i': int, j: int)
    requires 0 <= i' <= i < |schemas| && 0 <= j < |schemas[i'].simpleTypes|
    ensures forall c :: c in RemoveTypeDuplicates(schemas)[i].complexTypes ==>
      TypeKey(schemas[i].targetNamespace, c.name) != TypeKey(schemas[i'].targetNamespace, schemas[i'].simpleTypes[j].name)
  {
    var s := schemas[i];
    var ns := s.targetNamespace;
    var k := TypeKey(schemas[i'].targetNamespace, schemas[i'].simpleTypes[j].name);
    var seen := KeySet(AllKeys(schemas[..i]));
    var simple := FirstOccurrences(s.simpleTypes, SimpleKeyOf(ns), seen);
    assert k in simple.1 by {
      assert k in SchemaKeys(schemas[i']) by {
        assert k == Keys(schemas[i'].simpleTypes, SimpleKeyOf(schemas[i'].targetNamespace))[j];
      }
      if i' < i {
        AllKeysContains(schemas[..i], i');
        assert k in seen;
      } else {
        assert k == Keys(s.simpleTypes, SimpleKeyOf(ns))[j];
      }
    }
    var kept := FirstOccurrences(s.complexTypes, ComplexKeyOf(ns), simple.1).0;
    assert RemoveTypeDuplicates(schemas)[i].complexTypes == kept by {
      DedupAt(schemas, {}, i);
      assert {} + seen == seen;
    }
    FirstOccurrencesSpec(s.complexTypes, ComplexKeyOf(ns), simple.1);
    forall c | c in kept
      ensures TypeKey(ns, c.name) != k
    {
      var m :| 0 <= m < |kept| && kept[m] == c;
      assert ComplexKeyOf(ns)(kept[m]) !in simple.1;
    }
  }
}
